=== FILE: README.md ===
# WebViewer Mendix widget: a Dafny model of its decision logic

This project models the parts of the WebViewer Mendix widget that make decisions, as pure Dafny functions with proved contracts:

- **`PdfViewer`** models the viewer component. It covers:
  - which document is loaded on mount;
  - how the current file id and the loaded flag are tracked;
  - when the Save, Save As and Save XFDF buttons exist;
  - the effects of their click handlers, in order;
  - when annotations are exported to or imported from the XFDF attribute;
  - when the container is visible.
- **`ModuleClient`** models the REST client of the backend module: the module probe and the document update.
- **`PageRange`** models the rule by which a page-extraction thumbnail reads the "pages" text box. The rule splits on `,`, sorts, splits on `-`, sorts again and applies `Number(...)`. From that it decides whether the page is selected and whether it is disabled.
- **`Thumbnail`** models the thumbnail's state, plus its hover and click handlers.
- **`ListItem`** models one item of the virtual list:
  - the padded intersection test;
  - the `MAX_HEIGHT` value that all items share, which only ratchets upward;
  - the height and visibility handlers;
  - what the item renders.
- **`ExtractionModal`** models the extraction dialog: its page count, current page, thumbnail cache, and page label.

Two modules hold the JavaScript semantics the decisions depend on:

- **`Js`** covers truthiness, `||`, `Number(...)` and template-literal display.
- **`Strings`** covers `split`, `join`, and the default string `sort`.

Handlers are modelled as functions that return the list of effects they perform. Examples of effects are `ExportAnnotations`, `GetFileData`, a client request, `StartDelay(3000)`, `OpenLoadingModal` and `CloseLoadingModal`. Where a handler changes state, it also returns the new state. SDK calls, `fetch` and `saveFile` are not interpreted. What they yield is a parameter:
- the exported XFDF;
- the file bytes;
- a `FetchOutcome`;
- a `SaveOutcome`.

## Semantics chosen

- **`Number(s)`** is restricted to decimal digits with optional surrounding white space. The white space is StrWhiteSpaceChar from section 7.1.4.1.1 of ECMA-262. A blank string gives 0. Any other string gives NaN, which is `None`. Every comparison with NaN is false.
- **`Array.prototype.sort`** with no comparator orders strings lexicographically by character. So a range `2-10` has the bounds 10 and 2.
- **`occurrances = occurrances ? occurrances++ : 2`** assigns the old value back to the counter. So a range hit only changes a counter that is 0.
- **State updates.** State updates made by the viewer's mount code and callbacks apply immediately. In the thumbnail's click handler, React defers the update until the handler returns. So the value reported to the parent is the new selection.
- **`ListItem.MAX_HEIGHT`** is one static value shared by all items. It is passed in and returned explicitly.

## Behaviour of the code worth noting

The model follows the code as written, including where its own comments say otherwise:

- **"Complete when one of them finish".** This comment stands above `Promise.all([uiDelay])` in Save (src/components/PDFViewer.tsx:133-134) and above `Promise.all([uiDelay, saveTask])` in Save As (src/components/PDFViewer.tsx:170-171). `Promise.all` waits for *all* of its promises, not one of them. The model's `AwaitAll(k)` effect waits for all `k` tasks: Save As closes the modal only after both the delay and the save task resolve, and a rejected save task leaves the modal open.
- **Save.** The Save button awaits `updateFile` *before* it starts the 3000 ms delay and opens the loading modal (src/components/PDFViewer.tsx:117-131). So the update and the delay do not run side by side, and the `Promise.all` awaits the delay alone.
- **Save As.** A `saveFile` that throws synchronously ends the handler before the modal opens.
- **`updateFile`.** It never rejects. A thrown `fetch` is only logged, and the HTTP status is never examined.
- **`checkForModule`.** It returns true whatever the HTTP status. It returns false when `fetch` throws, and also when reading the body throws.

## Model

| member | source | states |
|---|---|---|
| Strings.Split | src/components/PageExtractionModal/PageExtractionThumbnail.tsx:50 | `split` yields one more piece than there are separators, and no piece contains the separator |
| Strings.JoinSplit | src/components/PageExtractionModal/PageExtractionThumbnail.tsx:50 | joining the pieces of a split with the separator gives back the input |
| Strings.SplitJoin | src/components/PageExtractionModal/PageExtractionThumbnail.tsx:50 | splitting a join of separator-free pieces gives back the pieces |
| Strings.SplitAfterPiece | src/components/PageExtractionModal/PageExtractionThumbnail.tsx:54 | a separator-free piece followed by the separator splits off as the first piece |
| Strings.SplitWithoutSeparator | src/components/PageExtractionModal/PageExtractionThumbnail.tsx:54 | a string without the separator splits into itself |
| Strings.LexLeTotal | src/components/PageExtractionModal/PageExtractionThumbnail.tsx:50 | the default string order compares any two strings |
| Strings.LexLeAntisymmetric | src/components/PageExtractionModal/PageExtractionThumbnail.tsx:50 | strings ordered both ways are equal |
| Strings.LexLeTransitive | src/components/PageExtractionModal/PageExtractionThumbnail.tsx:50 | the default string order is transitive |
| Strings.LexLeReflexive | src/components/PageExtractionModal/PageExtractionThumbnail.tsx:50 | every string is ordered before or equal to itself |
| Strings.Insert | src/components/PageExtractionModal/PageExtractionThumbnail.tsx:50 | inserting into a sorted list keeps it sorted and adds exactly the one element |
| Strings.Sort | src/components/PageExtractionModal/PageExtractionThumbnail.tsx:50 | `sort()` returns a sorted permutation of its input |
| Strings.SortedUnique | src/components/PageExtractionModal/PageExtractionThumbnail.tsx:50 | two sorted lists with the same elements are equal, so the sorted result does not depend on the algorithm |
| Strings.SortPermutationInvariant | src/components/PageExtractionModal/PageExtractionThumbnail.tsx:50 | sorting permuted inputs gives the same list |
| Js.Or | src/components/PDFViewer.tsx:118 | `a \|\| b` is `a` when `a` is truthy and `b` otherwise, so it is truthy iff either operand is |
| Js.Truthy | src/components/PDFViewer.tsx:105 | a value is truthy unless it is `undefined`, `null`, `false`, `0`, NaN or the empty string |
| Js.Trim | src/components/PageExtractionModal/PageExtractionThumbnail.tsx:58-59 | trimming returns the one slice that has only white space outside it and no white space at either end; an all-space string becomes empty and a digit string is unchanged |
| Js.TrimBoundsUnique | src/components/PageExtractionModal/PageExtractionThumbnail.tsx:58-59 | a non-empty trimmed slice is determined by the string: any two such slices are equal |
| Js.NatToString | src/components/PageExtractionModal/index.tsx:69 | a number displays as a non-empty digit string without a leading zero |
| Js.ToNumber | src/components/PageExtractionModal/PageExtractionThumbnail.tsx:58-65 | a string reads as a number iff it is a run of digits with only white space around it, and the number is that run's decimal value; a blank string is 0 |
| Js.NumeralIsTrimmed | src/components/PageExtractionModal/PageExtractionThumbnail.tsx:58-65 | trimming a string that holds a numeral gives exactly that numeral |
| Js.DigitsValueOfNatToString | src/components/PageExtractionModal/index.tsx:69 | reading back the digits of a displayed number gives the number |
| Js.ToNumberNatToString | src/components/PDFViewer.tsx:174 | `Number(String(n))` is `n` for every natural number |
| Js.NumberOf | src/components/PDFViewer.tsx:174 | `Number(v)` leaves numbers and NaN alone, maps `undefined` to NaN, `null` to 0, booleans to 1 and 0, and a string to the value of its numeral, or NaN when it has none |
| Js.NumberOfDisplay | src/components/PDFViewer.tsx:174 | a non-negative id returned as a string becomes that number again |
| Js.Display | src/components/PageExtractionModal/index.tsx:69 | only `""` displays as the empty string, and a displayed non-negative number reads back as itself |
| ModuleClient.Requests | src/clients/WebViewerModuleClient.tsx:4-21 | the requests of an effect list are its `Send` effects in order: one `Send` gives its request, any other single effect gives none |
| ModuleClient.RequestsAppend | src/clients/WebViewerModuleClient.tsx:4-21 | the requests of concatenated effect lists are the concatenated requests |
| ModuleClient.CheckForModule | src/clients/WebViewerModuleClient.tsx:2-11 | exactly one GET to `/rest/version/v1/modules/webviewer`, then one info line: "Connected: " with the body, or "Not detected."; always resolves; true iff fetch resolves and its body can be read |
| ModuleClient.CheckForModuleIgnoresStatus | src/clients/WebViewerModuleClient.tsx:4-6 | any HTTP status with a readable body reports the module as present |
| ModuleClient.DocumentPath | src/clients/WebViewerModuleClient.tsx:18 | the update path starts with `/rest/documentstore/v1/documents/` |
| ModuleClient.DocumentPathRoundTrip | src/clients/WebViewerModuleClient.tsx:18 | the id text can be read back from the path |
| ModuleClient.DocumentPathInjective | src/clients/WebViewerModuleClient.tsx:18 | ids with different text address different documents |
| ModuleClient.UpdateFile | src/clients/WebViewerModuleClient.tsx:12-25 | a falsy id only warns; a truthy id sends exactly one PUT of the bytes to its document, first; a thrown fetch is followed only by the info "[Module] Failed to save document.", a response by nothing; the promise always resolves |
| ModuleClient.UpdateFileIgnoresStatus | src/clients/WebViewerModuleClient.tsx:17-24 | the update behaves the same whatever the HTTP status |
| PdfViewer.DocumentSource | src/components/PDFViewer.tsx:190-195 | an available URL attribute is loaded; a supplied but unavailable one loads nothing; the plain URL loads only when truthy and no URL attribute is supplied |
| PdfViewer.BindFileId | src/components/PDFViewer.tsx:197-199 | the current id is taken from the id attribute exactly when that attribute is available |
| PdfViewer.OnLoadedChange | src/components/PDFViewer.tsx:183-184 | `documentLoaded` and `documentUnloaded` set the loaded flag and leave the file id alone |
| PdfViewer.UpdateXfdfAttribute | src/components/PDFViewer.tsx:207-223 | nothing happens for imported changes or without a document; otherwise the exported XFDF is written to the attribute after the export |
| PdfViewer.AttributeIsLastWrite | src/components/PDFViewer.tsx:207-223 | after a run of change notifications the attribute holds the export of the last one the handler acts on, or its old value when it acts on none |
| PdfViewer.XfdfWiring | src/components/PDFViewer.tsx:201-242 | wiring only for an available attribute; the read-only warning is given iff the attribute is available and read-only, and then nothing else; the button exists iff export-button is enabled, and the listener iff auto-export is enabled, and it is debounced by 1000 ms; nothing but the warning, the Save XFDF button and that listener is ever produced |
| PdfViewer.AutoImport | src/components/PDFViewer.tsx:244-259 | considered only with auto-import on and a truthy id; a missing attribute warns; an available one imports now iff the document is loaded, else installs the retriever; nothing but the missing-attribute warning, an import or the retriever is ever produced |
| PdfViewer.Retriever | src/components/PDFViewer.tsx:251-256 | the retriever returns the attribute value only while the id is truthy and auto-import is on, returns undefined otherwise, and rejects when the attribute is absent |
| PdfViewer.MountedRetrieverReturnsAttribute | src/components/PDFViewer.tsx:244-256 | a retriever installed on mount returns the XFDF attribute value while the mounted state stands |
| PdfViewer.RetrieverAfterSaveAsZero | src/components/PDFViewer.tsx:174-256 | after Save As answers `"0"` the current id is falsy and the retriever returns undefined |
| PdfViewer.ImportIsNotWrittenBack | src/components/PDFViewer.tsx:207-249 | among notifications that each reach the handler (Save XFDF clicks, or auto-export changes more than 1000 ms apart), those flagged as imported, such as the auto-import's, leave the attribute as it was, and neither before nor after them is such a user's exported change lost |
| PdfViewer.Mount | src/components/PDFViewer.tsx:76-259 | mounting sets the language first, registers both document listeners, loads exactly the chosen source and binds the file id; the Save XFDF button exists iff the XFDF attribute is available, writable and the button is enabled, and the change listener iff it is available, writable and auto-export is on; annotations are imported now iff auto-import is on, the bound id is truthy, the attribute is available and the document is loaded, and a retriever is installed under the same conditions with the document not loaded; what is imported is the attribute's value; the read-only warning is given iff the XFDF attribute is available and read-only, and the missing-attribute warning iff auto-import is on, the bound id is truthy and no XFDF attribute is supplied; every effect is a setup, document load, XFDF wiring or auto-import effect |
| PdfViewer.Setup | src/components/PDFViewer.tsx:76-188 | the setup part of mounting sets the language first, adds both document listeners, always probes the module, enables the listed elements iff the list is non-empty, sets the dark theme iff dark mode is enabled and the current user iff the user is truthy, and loads nothing |
| PdfViewer.SourceLoad | src/components/PDFViewer.tsx:190-195 | the load part of mounting loads a URL iff it is the chosen document source |
| PdfViewer.MountEffects | src/components/PDFViewer.tsx:76-259 | the module probe, the enabled elements, a loaded URL, the Save XFDF button, the change listener, an import, the retriever and both warnings each occur in the whole of mounting under exactly the conditions of the part that decides them, and every effect is of one of the parts' kinds |
| PdfViewer.HeaderButtons | src/components/PDFViewer.tsx:92-179 | the Save button exists iff the module answered and document updates are enabled; the Save As button iff the module answered and Save As is enabled |
| PdfViewer.ProbeAndAddButtons | src/components/PDFViewer.tsx:92-179 | the Save button appears iff the probe's fetch resolves with a readable body and document updates are enabled, and the Save As button iff the same probe succeeds and Save As is enabled |
| PdfViewer.Lift | src/components/PDFViewer.tsx:117-120 | client effects appear unchanged and in order among the viewer's effects |
| PdfViewer.ClientEffectsLift | src/components/PDFViewer.tsx:117-120 | the client effects of a lifted list are the list itself |
| PdfViewer.ClientEffectsAppend | src/components/PDFViewer.tsx:103-137 | the client effects of concatenated lists are concatenated |
| PdfViewer.SaveFileId | src/components/PDFViewer.tsx:118 | the id sent is the truthy current id, else the truthy attribute value, else the empty string |
| PdfViewer.Save | src/components/PDFViewer.tsx:103-137 | nothing without a truthy current id or a supplied id attribute; without a document only the export, then the handler rejects with no request and no modal; otherwise export, file data, the update's effects, then delay, open, await and close |
| PdfViewer.CanSave | src/components/PDFViewer.tsx:105 | a save proceeds iff `currentFileId \|\| fileIdAttribute` is truthy |
| PdfViewer.SaveShape | src/components/PDFViewer.tsx:103-137 | a permitted save with a document open is the export and file data, then the lifted `updateFile` effects, then delay, open, await and close |
| PdfViewer.SentRequestsAppend | src/components/PDFViewer.tsx:103-137 | the requests of concatenated effect lists are concatenated |
| PdfViewer.SentRequestsLift | src/components/PDFViewer.tsx:117-120 | lifted client effects issue exactly the client's requests |
| PdfViewer.NoClientNoEffects | src/components/PDFViewer.tsx:103-137 | a list with no client effects has an empty client part |
| PdfViewer.ClientEffectsBetween | src/components/PDFViewer.tsx:103-137 | viewer effects before and after the client call contribute no client effects: the client effects of the whole list are exactly those of the call |
| PdfViewer.SaveRequestsAreUpdateRequests | src/components/PDFViewer.tsx:103-137 | with a document open, the client effects of a save are exactly those of its `updateFile` call, so its only requests are that call's |
| PdfViewer.SaveRequests | src/components/PDFViewer.tsx:105-120 | with a document open, a save sends one PUT of the file bytes to the chosen id's document when that id is truthy, and otherwise nothing but a warning |
| PdfViewer.SaveWithEmptyAttributeStillShowsModal | src/components/PDFViewer.tsx:105-136 | with a document open, a supplied id attribute with a falsy value sends nothing yet still opens and closes the loading modal |
| PdfViewer.SaveWithoutDocument | src/components/PDFViewer.tsx:113-155 | without a document neither save handler sends a request, calls `saveFile` or opens the loading modal, and Save As keeps the current id |
| PdfViewer.SaveAs | src/components/PDFViewer.tsx:147-177 | without a document only the export, then the handler rejects and the id is kept; otherwise export, file data and `saveFile` come first; unless `saveFile` throws, the 3000 ms delay starts, the modal opens and both tasks are awaited; the modal closes iff the save resolves, and the id becomes `Number(id)` just before closing |
| PdfViewer.SaveAsDecimalId | src/components/PDFViewer.tsx:174 | a Save As with a document, answered with the decimal text of `n`, sets the current id to the number `n` and changes nothing else |
| PdfViewer.SaveToCurrentId | src/components/PDFViewer.tsx:105-120 | with a positive numeric current id the save is allowed, and with a document open it sends one PUT of the bytes to that document |
| PdfViewer.SaveAfterSaveAs | src/components/PDFViewer.tsx:105-120 | after Save As returns a positive decimal id, the next save with a document open puts the bytes to that document |
| PdfViewer.SaveAfterSaveAsZero | src/components/PDFViewer.tsx:105 | after Save As returns `"0"` the current id is falsy, and without an id attribute the next save does nothing, with or without a document |
| PdfViewer.Unmount | src/components/PDFViewer.tsx:262-269 | the only effect of unmounting is Dispose, exactly when an instance exists; the instance is cleared and the file id and loaded flag are kept |
| PdfViewer.UnmountAfterMount | src/components/PDFViewer.tsx:76-269 | unmounting after a mount disposes once and leaves the mounted id and loaded flag with no instance; a second unmount does nothing |
| PdfViewer.IsShown | src/components/PDFViewer.tsx:276-279 | the container is hidden exactly for `false`, `0`, `NaN` and `""`; `undefined` and `null` show it |
| PageRange.NumberedPartIsOnePiece | src/components/PageExtractionModal/PageExtractionThumbnail.tsx:54-65 | a part with a number has no `-` and is its own single piece |
| PageRange.Classify | src/components/PageExtractionModal/PageExtractionThumbnail.tsx:54-67 | a part is a range hit, an exact hit, or neither, as the loop body's two branches decide |
| PageRange.VisitIsBump | src/components/PageExtractionModal/PageExtractionThumbnail.tsx:53-68 | one loop iteration depends only on the kind of hit |
| PageRange.Visit | src/components/PageExtractionModal/PageExtractionThumbnail.tsx:53-67 | one iteration never clears the selection, never lowers the counter, and keeps the counter non-negative and positive only when selected |
| PageRange.ScanIsScanHits | src/components/PageExtractionModal/PageExtractionThumbnail.tsx:50-68 | the loop over the sorted parts is the loop over their hit kinds |
| PageRange.Scan | src/components/PageExtractionModal/PageExtractionThumbnail.tsx:50-68 | after the loop the counter is non-negative and positive only when the page is selected |
| PageRange.AnyHitSnoc | src/components/PageExtractionModal/PageExtractionThumbnail.tsx:58-66 | one more part selects the page iff the earlier parts did or the new part is a hit |
| PageRange.FirstHitIsRangeSnoc | src/components/PageExtractionModal/PageExtractionThumbnail.tsx:62 | the first hit is a range after one more part iff it already was, or the new part is a range hit and no exact hit came before |
| PageRange.ScanHitsClosedForm | src/components/PageExtractionModal/PageExtractionThumbnail.tsx:51-68 | after the loop, selected iff some part hits; the counter is the number of exact hits, plus 2 when the first hit is a range |
| PageRange.SelectedIffCovered | src/components/PageExtractionModal/PageExtractionThumbnail.tsx:50-68 | a page is selected iff some comma-separated part covers it as a range or as an exact number |
| PageRange.DisabledIff | src/components/PageExtractionModal/PageExtractionThumbnail.tsx:51-71 | a page is disabled iff it has two or more exact hits, or its first hit in sorted order is a range |
| PageRange.EvaluateDependsOnlyOnParts | src/components/PageExtractionModal/PageExtractionThumbnail.tsx:50 | inputs with the same multiset of parts give the same selection and disabling |
| PageRange.Evaluate | src/components/PageExtractionModal/PageExtractionThumbnail.tsx:49-73 | a disabled thumbnail is always also selected |
| PageRange.PermutedPartsSameSelection | src/components/PageExtractionModal/PageExtractionThumbnail.tsx:50 | listing the same parts in any order gives the same result |
| PageRange.ManyDashesCoverNothing | src/components/PageExtractionModal/PageExtractionThumbnail.tsx:54-65 | a part with two or more `-` is neither a range nor an exact match |
| PageRange.OneDashIsRange | src/components/PageExtractionModal/PageExtractionThumbnail.tsx:55 | a part is a range iff it has exactly one `-` |
| PageRange.SortPair | src/components/PageExtractionModal/PageExtractionThumbnail.tsx:54 | sorting two strings puts them in lexicographic order |
| PageRange.RangeBoundsAreLexicographic | src/components/PageExtractionModal/PageExtractionThumbnail.tsx:54-59 | the bounds of `a-b` are `a` and `b` in lexicographic, not numeric, order |
| PageRange.DigitRangeCovers | src/components/PageExtractionModal/PageExtractionThumbnail.tsx:54-60 | `a-b` covers exactly the pages between the values of its lexicographically smaller and larger bound |
| PageRange.RangeCoversBetween | src/components/PageExtractionModal/PageExtractionThumbnail.tsx:55-60 | a range with digit bounds covers exactly the pages from its first to its second bound |
| PageRange.DigitRangeClassify | src/components/PageExtractionModal/PageExtractionThumbnail.tsx:54-63 | a digit range is a range hit exactly for the pages between its lexicographic bounds, otherwise no hit |
| PageRange.SinglePart | src/components/PageExtractionModal/PageExtractionThumbnail.tsx:50-72 | an input without a comma selects iff its one part hits, and disables iff that hit is a range |
| PageRange.InputOne | src/components/PageExtractionModal/PageExtractionThumbnail.tsx:50-72 | the input "1" selects page 1 alone and disables nothing |
| PageRange.LoneRangeDisables | src/components/PageExtractionModal/PageExtractionThumbnail.tsx:62-71 | a lone range that covers the page selects and disables it |
| PageRange.ReversedBoundsSelectNothing | src/components/PageExtractionModal/PageExtractionThumbnail.tsx:54-60 | "2-10" selects and disables no page |
| PageRange.RangeAloneDisablesOne | src/components/PageExtractionModal/PageExtractionThumbnail.tsx:62-71 | "1-3" selects and disables page 1 |
| PageRange.ExactBeforeRangeKeepsEnabled | src/components/PageExtractionModal/PageExtractionThumbnail.tsx:53-71 | "1,1-3" selects page 1 and leaves it enabled |
| PageRange.ExactThenRange | src/components/PageExtractionModal/PageExtractionThumbnail.tsx:53-68 | an exact hit followed by a range hit leaves the page selected with one occurrence |
| PageRange.ClassifiedPair | src/components/PageExtractionModal/PageExtractionThumbnail.tsx:53-67 | the hits of two parts are the hits of each part in order |
| Thumbnail.Init | src/components/PageExtractionModal/PageExtractionThumbnail.tsx:36-41 | a thumbnail starts selected iff it shows page 1, not hovered, not disabled, without an image |
| Thumbnail.InitAgreesWithInputOne | src/components/PageExtractionModal/PageExtractionThumbnail.tsx:36-41 | the initial state is the state the input "1" produces |
| Thumbnail.OnThumbnailLoaded | src/components/PageExtractionModal/PageExtractionThumbnail.tsx:27-34 | the loaded image is stored and nothing else changes |
| Thumbnail.OnFileInputChanged | src/components/PageExtractionModal/PageExtractionThumbnail.tsx:49-73 | an input change selects iff some part covers the page, and disables by the hit rule; the image and hover are kept |
| Thumbnail.InputChangeForgetsPriorSelection | src/components/PageExtractionModal/PageExtractionThumbnail.tsx:69-72 | the new selection and disabling do not depend on the previous ones |
| Thumbnail.InputChangeIdempotent | src/components/PageExtractionModal/PageExtractionThumbnail.tsx:49-73 | the same input applied twice gives the state it gives once |
| Thumbnail.ThumbnailCommutesWithInput | src/components/PageExtractionModal/PageExtractionThumbnail.tsx:49-73 | the thumbnail image and an input change may arrive in either order |
| Thumbnail.OnHoverEnter | src/components/PageExtractionModal/PageExtractionThumbnail.tsx:74-79 | entering sets hover unless disabled, and changes nothing else |
| Thumbnail.OnHoverLeave | src/components/PageExtractionModal/PageExtractionThumbnail.tsx:80-85 | leaving clears hover unless disabled, and changes nothing else |
| Thumbnail.OnClick | src/components/PageExtractionModal/PageExtractionThumbnail.tsx:86-92 | a disabled thumbnail ignores the click; an enabled one flips its selection and reports the page with the new value |
| Thumbnail.DisabledIsInert | src/components/PageExtractionModal/PageExtractionThumbnail.tsx:74-92 | a disabled thumbnail ignores hover enter, hover leave and click, and reports nothing |
| Thumbnail.ClickTwiceRestores | src/components/PageExtractionModal/PageExtractionThumbnail.tsx:86-92 | two clicks on an enabled thumbnail restore its state after reporting opposite selections |
| Thumbnail.HoverLeaveUndoesEnter | src/components/PageExtractionModal/PageExtractionThumbnail.tsx:74-85 | leaving undoes entering on an enabled, unhovered thumbnail |
| ListItem.IntersectsIffCommonPoint | src/components/PageExtractionModal/ListItem.tsx:83-92 | for boxes of positive height, the padded test holds iff some point lies strictly inside both the padded rect1 and rect2 |
| ListItem.Intersects | src/components/PageExtractionModal/ListItem.tsx:83-93 | the padded test holds iff the distance between the boxes' centres is less than half the sum of their heights plus twice the padding |
| ListItem.PaddingMonotone | src/components/PageExtractionModal/ListItem.tsx:84-90 | with a non-negative `MAX_HEIGHT`, a larger padding never loses an intersection |
| ListItem.DefaultPaddingIsThirteen | src/components/PageExtractionModal/ListItem.tsx:83 | leaving out the padding argument is the same test as passing 13 |
| ListItem.Init | src/components/PageExtractionModal/ListItem.tsx:26-54 | a synchronous render target renders at once, a promise renders nothing yet; height 0, visible, subscribed to `maxHeightUpdate` and `scroll` |
| ListItem.OnRenderTargetResolved | src/components/PageExtractionModal/ListItem.tsx:45-47 | the resolved target is stored and rendering starts |
| ListItem.Ratchet | src/components/PageExtractionModal/ListItem.tsx:30-37 | `MAX_HEIGHT` never decreases, and it only ever becomes a measured height |
| ListItem.OnResize | src/components/PageExtractionModal/ListItem.tsx:30-40 | absent, zero and lower measurements are ignored; otherwise the maximum, the broadcast and the item's height all become the measurement |
| ListItem.RatchetAllIsMax | src/components/PageExtractionModal/ListItem.tsx:30-37 | after any run of measurements, `MAX_HEIGHT` is the largest of its start value and the non-zero measurements |
| ListItem.Unmount | src/components/PageExtractionModal/ListItem.tsx:60-66 | unmounting resets `MAX_HEIGHT` to 153 and drops the scroll subscription and no other |
| ListItem.MaxHeightSubscriptionOutlivesItem | src/components/PageExtractionModal/ListItem.tsx:41-66 | the `maxHeightUpdate` subscription is taken on construction and never dropped |
| ListItem.OnMaxHeightUpdate | src/components/PageExtractionModal/ListItem.tsx:67-71 | a hidden item grows to the broadcast height when smaller; nothing shrinks; a visible item is unchanged |
| ListItem.MaxHeightUpdatesCommute | src/components/PageExtractionModal/ListItem.tsx:67-71 | two broadcasts reach an item in either order with the same result |
| ListItem.OnParentScroll | src/components/PageExtractionModal/ListItem.tsx:72-82 | visibility becomes the padded intersection of the parent and the item; without the item's element nothing changes |
| ListItem.Render | src/components/PageExtractionModal/ListItem.tsx:95-132 | nothing before the target is ready; otherwise exactly one of content and placeholder shows, at the larger of `MAX_HEIGHT` and the item's height |
| ListItem.ResizedItemRendersMeasuredHeight | src/components/PageExtractionModal/ListItem.tsx:30-40 | after a growing measurement the item renders at exactly that height |
| ListItem.HiddenItemKeepsBroadcastHeight | src/components/PageExtractionModal/ListItem.tsx:30-40 | a hidden item that hears another item's growing measurement renders at least that tall, even after an unmount has reset the shared height |
| ExtractionModal.Init | src/components/PageExtractionModal/index.tsx:16-26 | without a document the constructor throws and no dialog exists; with one, the dialog starts on page 1 with the document's page count, an empty cache and a request for page 1 |
| ExtractionModal.Load | src/components/PageExtractionModal/index.tsx:47-48 | a thumbnail request captures the cache as it is when the request is made |
| ExtractionModal.DidUpdate | src/components/PageExtractionModal/index.tsx:33-41 | a thumbnail is requested iff the current page changed and is not cached |
| ExtractionModal.OnThumbnail | src/components/PageExtractionModal/index.tsx:49-56 | the cache becomes the captured copy plus the new page: other captured keys keep their values |
| ExtractionModal.OnDocumentLoaded | src/components/PageExtractionModal/index.tsx:42-46 | only the page count changes |
| ExtractionModal.ConcurrentRequestsLoseUpdate | src/components/PageExtractionModal/index.tsx:47-56 | of two requests issued from the same cache, the later callback drops the earlier page's entry unless it was already cached |
| ExtractionModal.SequentialRequestsKeepBoth | src/components/PageExtractionModal/index.tsx:47-56 | a request issued after the previous callback ran keeps both entries |
| ExtractionModal.CachedPageNotRequestedAgain | src/components/PageExtractionModal/index.tsx:33-56 | once a non-empty thumbnail of the current page is cached, a page change does not request it again |
| ExtractionModal.DocumentLoadedCommutesWithThumbnail | src/components/PageExtractionModal/index.tsx:42-56 | a new page count and a thumbnail callback may arrive in either order |
| ExtractionModal.PageLabelRoundTrip | src/components/PageExtractionModal/index.tsx:69 | the label splits on `/` into the current page and the page count, which read back as those numbers |
| ExtractionModal.PageLabel | src/components/PageExtractionModal/index.tsx:69 | the label has a `/` with the current page's numeral before it and the page count's numeral after it |
| ExtractionModal.PageLabelInjective | src/components/PageExtractionModal/index.tsx:69 | equal labels mean equal current page and page count |

## Left out

- The WebViewer SDK is out. That covers `viewer()`, `exportAnnotations`, `getFileData`, `importAnnotations`, `loadThumbnail`, `setHeaderItems`, `dispose`, the themes and the element lists. They are effect labels, and their results are parameters.
- `WebViewerModuleClient.saveFile` is called by Save As but defined nowhere in the client. Its behaviour is the parameter `SaveOutcome`.
- Time is out: `setTimeout`, lodash `debounce` and the 100 ms scroll timer. The model keeps only the named delays and the order of effects. It does not model clocks, or how a debounce merges calls.
- React's scheduling is out. The viewer's updates are taken as immediate. Under batching, the auto-import check at src/components/PDFViewer.tsx:244 would still see the file id as undefined.
- The thumbnail's checkbox `onClick` is out. It sits inside the clickable `div`, so one click on it runs the handler twice. The model treats each click as one call.
- PdfViewer.ImportIsNotWrittenBack: that the SDK's `importAnnotations` flags the change notifications it causes with a truthy `imported` field is a fact about the SDK, not about this code. The lemma takes it as its hypothesis about those notifications. The lemma also runs the handler once per notification. The auto-export listener is `debounce(updateXfdfAttribute, 1000)` (src/components/PDFViewer.tsx:224, :239), which calls the handler once, with the last notification of a burst. So a user's change followed within 1000 ms by import-flagged notifications is dropped, and the lemma says nothing about that case.
- PdfViewer.Setup: `EnableElements` carries the `enabledElements` text as given. The call passes it split on `"\r\n"`, and that two-character split is not modelled. The same holds for `disabledElements` in the viewer options.
- The save handlers' rejection without a document is not caught anywhere. The model ends the handler's effects there and does not model the unhandled-rejection report.
- Js.ToNumber: does not model signs, decimal points, exponents, `Infinity` or hex/octal/binary prefixes. Inside the model, those inputs read as NaN.
- Js.Display: a negative number displays with a leading `-`, which the restricted `Number` reads as NaN. So the read-back is promised only for non-negative numbers.
- Strings.LexLe: orders by Unicode code point, not UTF-16 code unit. The two orders differ only for characters outside the Basic Multilingual Plane.
- Page numbers and ids are integers, and heights are reals. Floating-point rounding is not modelled.
- `fetch` and HTTP are out, as are ResizeObserver, `getBoundingClientRect`, JSX and styles. Their observable results are parameters.
- The listener registration of the thumbnail and of the extraction dialog is not modelled. Neither is the thumbnail's markup.
- ExtractionModal.DidUpdate: nothing in the dialog ever changes `currentPage`. So this rule is modelled as stated, but no modelled handler ever triggers it.
- Several files are not part of this model: src/components/PageExtractionModal/VirtualList.tsx, PageExtractionModalStyles.tsx, src/WebViewer.tsx, src/WebViewer.editorPreview.tsx and typings/WebViewerProps.d.ts. They are render mapping, style constants, prop projection and type declarations. The visibility rule takes the already projected `isVisible` value.

=== FILE: extraction_modal.dfy ===
/** The page-extraction dialog (src/components/PageExtractionModal/index.tsx):
    page count, current page, and the cache of page thumbnails.

    `loadThumbnail(page)` copies the cache when it asks the viewer for a
    thumbnail, and its callback writes that copy plus the new entry back. The
    viewer's rendering is not modelled: a request is answered by a data URL
    given as a parameter, at whatever later point the caller chooses. */
module ExtractionModal {
  import opened Js
  import opened Strings

  datatype ModalState = ModalState(pageCount: nat, currentPage: nat, cache: map<nat, string>)

  /** A pending `loadThumbnail` call and the cache it captured. */
  datatype ThumbnailRequest = ThumbnailRequest(page: nat, snapshot: map<nat, string>)

  datatype Opened = Opened(state: ModalState, request: ThumbnailRequest)

  /** The constructor, given the open document's page count (`None` without a
      document). Its closing `loadThumbnail(1)` asks the document for a
      thumbnail, so without a document the constructor throws and no dialog
      exists; otherwise the dialog opens on page 1 with an empty cache and a
      request for page 1's thumbnail. */
  function Init(docPageCount: Option<nat>): (o: Option<Opened>)
    ensures o.None? <==> docPageCount.None?
    ensures o.Some? ==> o.value.state.pageCount == docPageCount.value
    ensures o.Some? ==> o.value.state.currentPage == 1 && |o.value.state.cache| == 0
    ensures o.Some? ==> o.value.request.page == 1 && Missing(o.value.request.snapshot, 1)
  {
    match docPageCount
    case None => None
    case Some(n) =>
      var s := ModalState(n, 1, map[]);
      Some(Opened(s, Load(s, 1)))
  }

  /** `!thumbnailCache[page]`: no entry, or an empty one. */
  predicate Missing(cache: map<nat, string>, page: nat)
  {
    page !in cache || cache[page] == ""
  }

  /** `loadThumbnail(page)` issued from state `s`. */
  function Load(s: ModalState, page: nat): (r: ThumbnailRequest)
    ensures r.page == page && r.snapshot == s.cache
  {
    ThumbnailRequest(page, s.cache)
  }

  /** `componentDidUpdate`: a thumbnail is requested only for a new current
      page that is not cached yet. */
  function DidUpdate(prev: ModalState, cur: ModalState): (r: Option<ThumbnailRequest>)
    ensures r.Some? <==> prev.currentPage != cur.currentPage && Missing(cur.cache, cur.currentPage)
    ensures r.Some? ==> r.value == Load(cur, cur.currentPage)
  {
    if prev.currentPage != cur.currentPage && Missing(cur.cache, cur.currentPage) then
      Some(Load(cur, cur.currentPage))
    else None
  }

  /** The callback of a thumbnail request: the cache becomes the captured copy
      plus the new entry, whatever was added to the cache in between. */
  function OnThumbnail(s: ModalState, req: ThumbnailRequest, url: string): (r: ModalState)
    ensures r.cache.Keys == req.snapshot.Keys + {req.page}
    ensures r.cache[req.page] == url
    ensures forall k :: k in req.snapshot && k != req.page ==> r.cache[k] == req.snapshot[k]
    ensures r.pageCount == s.pageCount && r.currentPage == s.currentPage
  {
    s.(cache := req.snapshot[req.page := url])
  }

  /** `documentLoaded`: only the page count follows the new document. */
  function OnDocumentLoaded(s: ModalState, pageCount: nat): (r: ModalState)
    ensures r.pageCount == pageCount
    ensures r.(pageCount := s.pageCount) == s
  {
    s.(pageCount := pageCount)
  }

  /** Two requests issued from the same state: when both callbacks run, the
      first one's entry is gone unless it was already cached. */
  lemma ConcurrentRequestsLoseUpdate(s: ModalState, p1: nat, p2: nat, u1: string, u2: string)
    requires p1 != p2
    ensures var after := OnThumbnail(OnThumbnail(s, Load(s, p1), u1), Load(s, p2), u2);
            p1 in after.cache <==> p1 in s.cache
  {
  }

  /** A request issued after the previous callback ran keeps both entries. */
  lemma SequentialRequestsKeepBoth(s: ModalState, p1: nat, p2: nat, u1: string, u2: string)
    requires p1 != p2
    ensures var s1 := OnThumbnail(s, Load(s, p1), u1);
            var s2 := OnThumbnail(s1, Load(s1, p2), u2);
            s2.cache[p1] == u1 && s2.cache[p2] == u2
  {
  }

  /** After its callback a requested page is no longer missing, as long as
      the data URL is not empty, so a later page change does not request it
      again from that state. */
  lemma CachedPageNotRequestedAgain(prev: ModalState, s: ModalState, req: ThumbnailRequest, url: string)
    requires url != ""
    requires req.page == s.currentPage
    ensures DidUpdate(prev, OnThumbnail(s, req, url)).None?
  {
  }

  /** A new document and a thumbnail callback may arrive in either order. */
  lemma DocumentLoadedCommutesWithThumbnail(s: ModalState, n: nat, req: ThumbnailRequest, url: string)
    ensures OnDocumentLoaded(OnThumbnail(s, req, url), n) == OnThumbnail(OnDocumentLoaded(s, n), req, url)
  {
  }

  /** The label under the preview, `${currentPage}/${pageCount}`: a slash with
      the current page's digits before it and the page count's after it. */
  function PageLabel(s: ModalState): (l: string)
    ensures exists i :: 0 <= i < |l| && l[i] == '/'
              && ToNumber(l[..i]) == Some(s.currentPage) && ToNumber(l[i + 1..]) == Some(s.pageCount)
  {
    var a, b := Display(Num(s.currentPage)), Display(Num(s.pageCount));
    SlashBetween(a, b, s.currentPage, s.pageCount);
    a + "/" + b
  }

  /** Joining two numerals with a slash puts each one on its side of a slash. */
  lemma SlashBetween(a: string, b: string, x: int, y: int)
    requires ToNumber(a) == Some(x) && ToNumber(b) == Some(y)
    ensures var l := a + "/" + b;
            exists i :: 0 <= i < |l| && l[i] == '/' && ToNumber(l[..i]) == Some(x) && ToNumber(l[i + 1..]) == Some(y)
  {
    var l := a + "/" + b;
    assert l[..|a|] == a && l[|a| + 1..] == b;
    assert l[|a|] == '/';
  }

  /** The label names both numbers: split on `/` it gives back the current
      page and the page count. */
  lemma PageLabelRoundTrip(s: ModalState)
    ensures Split(PageLabel(s), '/') == [NatToString(s.currentPage), NatToString(s.pageCount)]
    ensures ToNumber(Split(PageLabel(s), '/')[0]) == Some(s.currentPage)
    ensures ToNumber(Split(PageLabel(s), '/')[1]) == Some(s.pageCount)
  {
    var a, b := NatToString(s.currentPage), NatToString(s.pageCount);
    LabelText(s);
    DigitsAroundSlash(a, b);
    ToNumberNatToString(s.currentPage);
    ToNumberNatToString(s.pageCount);
  }

  /** The label of natural numbers is their decimal forms around the slash. */
  lemma LabelText(s: ModalState)
    ensures PageLabel(s) == NatToString(s.currentPage) + "/" + NatToString(s.pageCount)
  {
  }

  /** Two digit strings joined by a slash split back into the two. */
  lemma DigitsAroundSlash(a: string, b: string)
    requires AllDigits(a) && AllDigits(b)
    ensures Split(a + "/" + b, '/') == [a, b]
  {
    NoSlashInDigits(a);
    NoSlashInDigits(b);
    assert a + "/" + b == a + ['/'] + b;
    SplitAfterPiece(a, '/', b);
    SplitWithoutSeparator(b, '/');
  }

  lemma NoSlashInDigits(a: string)
    requires AllDigits(a)
    ensures '/' !in a
  {
    forall i | 0 <= i < |a| ensures a[i] != '/' { assert IsDigit(a[i]); }
  }

  /** Two states show the same label only when their page numbers agree. */
  lemma PageLabelInjective(s: ModalState, t: ModalState)
    requires PageLabel(s) == PageLabel(t)
    ensures s.currentPage == t.currentPage && s.pageCount == t.pageCount
  {
    PageLabelRoundTrip(s);
    PageLabelRoundTrip(t);
  }
}

=== FILE: js.dfy ===
/** The fragment of JavaScript value semantics the widget's decisions depend
    on: `undefined`/`null`, truthiness, the `||` operator, coercion to a number
    with `Number(...)`, and coercion to a string in a template literal.

    Numbers are integers or NaN; fractional numbers, infinities and negative
    zero are not represented. `Number(s)` on a string is restricted to optional
    surrounding white space around decimal digits: a blank string gives 0, a
    run of digits gives its value, and everything else gives NaN. Real
    JavaScript also accepts signs, a decimal point, exponents, `Infinity` and
    `0x`/`0o`/`0b` prefixes; inside this model those inputs read as NaN. */
module Js {

  datatype Option<+T> = None | Some(value: T)

  /** A JavaScript value as far as the widget inspects it. */
  datatype Value =
    | Undefined
    | Null
    | Bool(b: bool)
    | Num(n: int)
    | NaN
    | Str(s: string)

  /** JavaScript truthiness (`if (v)`, `!v`, `v && ...`): every value is
      truthy except the six falsy ones of ToBoolean (section 7.1.2 of
      ECMA-262) that the model represents. */
  predicate Truthy(v: Value)
    ensures Truthy(v) <==> v != Undefined && v != Null && v != Bool(false) && v != Num(0) && v != NaN && v != Str("")
  {
    match v
    case Undefined => false
    case Null => false
    case Bool(b) => b
    case Num(n) => n != 0
    case NaN => false
    case Str(s) => |s| > 0
  }

  /** `a || b`: the first operand when it is truthy, otherwise the second. */
  function Or(a: Value, b: Value): (r: Value)
    ensures Truthy(r) <==> Truthy(a) || Truthy(b)
    ensures r == a || r == b
    ensures Truthy(b) && r != b ==> Truthy(a)
    ensures Truthy(a) ==> r == a
    ensures !Truthy(a) ==> r == b
  {
    if Truthy(a) then a else b
  }

  /** `v === undefined || v === null`. */
  predicate Nullish(v: Value)
  {
    v == Undefined || v == Null
  }

  /** White space and line terminators that `Number(...)` trims
      (section 7.1.4.1.1 of ECMA-262, StrWhiteSpaceChar). */
  predicate IsSpace(c: char)
  {
    || c == '\t' || c == '\n' || c == '\U{000B}' || c == '\U{000C}' || c == '\r'
    || c == ' ' || c == '\U{00A0}' || c == '\U{1680}'
    || ('\U{2000}' <= c <= '\U{200A}')
    || c == '\U{2028}' || c == '\U{2029}' || c == '\U{202F}' || c == '\U{205F}'
    || c == '\U{3000}' || c == '\U{FEFF}'
  }

  predicate IsDigit(c: char)
  {
    '0' <= c <= '9'
  }

  predicate AllDigits(s: string)
  {
    forall i :: 0 <= i < |s| ==> IsDigit(s[i])
  }

  /** The index of the first character at or after `k` that is not white space. */
  function SkipSpaces(s: string, k: nat): (lo: nat)
    requires k <= |s|
    ensures k <= lo <= |s|
    ensures forall i :: k <= i < lo ==> IsSpace(s[i])
    ensures lo < |s| ==> !IsSpace(s[lo])
    decreases |s| - k
  {
    if k < |s| && IsSpace(s[k]) then SkipSpaces(s, k + 1) else k
  }

  /** The index just after the last character before `k`, and at or after
      `lo`, that is not white space. */
  function SkipSpacesBack(s: string, lo: nat, k: nat): (hi: nat)
    requires lo <= k <= |s|
    ensures lo <= hi <= k
    ensures forall i :: hi <= i < k ==> IsSpace(s[i])
    ensures hi > lo ==> !IsSpace(s[hi - 1])
    decreases k
  {
    if k > lo && IsSpace(s[k - 1]) then SkipSpacesBack(s, lo, k - 1) else k
  }

  /** `s[lo..hi]` is what is left of `s` once its leading and trailing white
      space is cut: everything outside it is white space, and a non-empty
      remainder starts and ends with another character. */
  predicate TrimBounds(s: string, lo: int, hi: int)
  {
    && 0 <= lo <= hi <= |s|
    && (forall i :: 0 <= i < lo ==> IsSpace(s[i]))
    && (forall i :: hi <= i < |s| ==> IsSpace(s[i]))
    && (lo < hi ==> !IsSpace(s[lo]) && !IsSpace(s[hi - 1]))
  }

  /** `s.trim()`: the contiguous part of `s` between its leading and trailing
      white space, which is the same for every way of cutting it. */
  function Trim(s: string): (t: string)
    ensures exists lo, hi :: TrimBounds(s, lo, hi) && t == s[lo..hi]
    ensures forall lo, hi :: TrimBounds(s, lo, hi) && lo < hi ==> t == s[lo..hi]
    ensures (forall i :: 0 <= i < |s| ==> IsSpace(s[i])) ==> t == ""
    ensures AllDigits(s) ==> t == s
  {
    var lo := SkipSpaces(s, 0);
    var hi := SkipSpacesBack(s, lo, |s|);
    assert TrimBounds(s, lo, hi);
    TrimBoundsUnique(s, lo, hi);
    if AllDigits(s) && |s| > 0 then
      assert !IsSpace(s[0]) && !IsSpace(s[|s| - 1]);
      assert TrimBounds(s, 0, |s|);
      s[lo..hi]
    else s[lo..hi]
  }

  /** Two cuts of the same string, the second one non-empty, are the same cut. */
  lemma TrimBoundsUnique(s: string, lo: int, hi: int)
    requires TrimBounds(s, lo, hi)
    ensures forall lo', hi' :: TrimBounds(s, lo', hi') && lo' < hi' ==> lo == lo' && hi == hi'
  {
    forall lo', hi' | TrimBounds(s, lo', hi') && lo' < hi'
      ensures lo == lo' && hi == hi'
    {
      assert !IsSpace(s[lo']) && !IsSpace(s[hi' - 1]);
      assert lo' < hi;
      assert lo < hi;
      assert !IsSpace(s[lo]) && !IsSpace(s[hi - 1]);
    }
  }

  function DigitValue(c: char): nat
    requires IsDigit(c)
  {
    c as int - '0' as int
  }

  function DigitChar(d: nat): (c: char)
    requires d < 10
    ensures IsDigit(c) && DigitValue(c) == d
  {
    ('0' as int + d) as char
  }

  /** The decimal value of a string of digits. */
  function DigitsValue(s: string): nat
    requires AllDigits(s)
  {
    if |s| == 0 then 0 else DigitsValue(s[..|s| - 1]) * 10 + DigitValue(s[|s| - 1])
  }

  /** The decimal representation of a natural number, without leading zeros. */
  function NatToString(n: nat): (s: string)
    ensures |s| > 0 && AllDigits(s)
    ensures |s| > 1 ==> s[0] != '0'
  {
    if n < 10 then [DigitChar(n)] else NatToString(n / 10) + [DigitChar(n % 10)]
  }

  /** `s` is a run of decimal digits `s[lo..hi]`, possibly empty, with only
      white space around it. */
  predicate NumeralAt(s: string, lo: int, hi: int)
  {
    && 0 <= lo <= hi <= |s|
    && (forall i :: 0 <= i < lo ==> IsSpace(s[i]))
    && AllDigits(s[lo..hi])
    && (forall i :: hi <= i < |s| ==> IsSpace(s[i]))
  }

  /** The restricted `Number(s)`: `None` stands for NaN. A string is a number
      exactly when it is digits surrounded by white space, and its value is
      that of the digits (0 for a blank string). */
  function ToNumber(s: string): (r: Option<nat>)
    ensures r.Some? <==> exists lo, hi :: NumeralAt(s, lo, hi)
    ensures forall lo, hi :: NumeralAt(s, lo, hi) ==> r == Some(DigitsValue(s[lo..hi]))
    ensures (forall i :: 0 <= i < |s| ==> IsSpace(s[i])) ==> r == Some(0)
    ensures r.Some? ==> forall i :: 0 <= i < |s| ==> IsDigit(s[i]) || IsSpace(s[i])
    ensures AllDigits(s) && |s| > 0 ==> r == Some(DigitsValue(s))
  {
    var t := Trim(s);
    NumeralIsTrimmed(s);
    var lo, hi :| TrimBounds(s, lo, hi) && t == s[lo..hi];
    if |t| == 0 then
      assert NumeralAt(s, lo, hi);
      Some(0)
    else if AllDigits(t) then
      assert NumeralAt(s, lo, hi);
      Some(DigitsValue(t))
    else None
  }

  /** Whatever surrounds the digits is exactly what `trim` removes. */
  lemma NumeralIsTrimmed(s: string)
    ensures forall lo, hi :: NumeralAt(s, lo, hi) ==> Trim(s) == s[lo..hi]
    ensures forall lo, hi :: NumeralAt(s, lo, hi) ==> forall i :: 0 <= i < |s| ==> IsDigit(s[i]) || IsSpace(s[i])
  {
    forall lo, hi | NumeralAt(s, lo, hi)
      ensures Trim(s) == s[lo..hi]
      ensures forall i :: 0 <= i < |s| ==> IsDigit(s[i]) || IsSpace(s[i])
    {
      forall i | lo <= i < hi
        ensures IsDigit(s[i])
      {
        assert s[i] == s[lo..hi][i - lo];
      }
      if lo < hi {
        assert !IsSpace(s[lo]) && !IsSpace(s[hi - 1]);
        assert TrimBounds(s, lo, hi);
      }
    }
  }

  /** Reading back the decimal digits of a number gives the number. */
  lemma {:induction false} DigitsValueOfNatToString(n: nat)
    ensures DigitsValue(NatToString(n)) == n
  {
    if n >= 10 {
      var s := NatToString(n);
      DigitsValueOfNatToString(n / 10);
      assert s[..|s| - 1] == NatToString(n / 10);
    }
  }

  /** `Number(String(n)) === n` for every natural number. */
  lemma ToNumberNatToString(n: nat)
    ensures ToNumber(NatToString(n)) == Some(n)
  {
    DigitsValueOfNatToString(n);
  }

  /** `Number(v)`. */
  function NumberOf(v: Value): (r: Value)
    ensures r.Num? || r.NaN?
    ensures v.Num? || v.NaN? ==> r == v
    ensures v == Undefined ==> r == NaN
    ensures v == Null ==> r == Num(0)
    ensures v.Bool? ==> r == Num(if v.b then 1 else 0)
    ensures v.Str? ==> (r.Num? <==> ToNumber(v.s).Some?)
    ensures v.Str? && r.Num? ==> r.n == ToNumber(v.s).value
  {
    match v
    case Undefined => NaN
    case Null => Num(0)
    case Bool(b) => Num(if b then 1 else 0)
    case Num(n) => v
    case NaN => NaN
    case Str(s) =>
      match ToNumber(s)
      case Some(n) => Num(n)
      case None => NaN
  }

  /** `String(v)`, as a template literal `${v}` renders it. */
  function Display(v: Value): (d: string)
    ensures d == "" ==> v == Str("")
    ensures v.Num? ==> ToNumber(d) == if v.n >= 0 then Some(v.n) else None
  {
    match v
    case Undefined => "undefined"
    case Null => "null"
    case Bool(b) => if b then "true" else "false"
    case Num(n) =>
      if n < 0 then
        var t := "-" + NatToString(-n);
        assert !IsDigit(t[0]) && !IsSpace(t[0]);
        t
      else
        ToNumberNatToString(n);
        NatToString(n)
    case NaN => "NaN"
    case Str(s) => s
  }

  /** A non-negative number survives the trip through its string form. */
  lemma NumberOfDisplay(n: nat)
    ensures NumberOf(Str(Display(Num(n)))) == Num(n)
  {
    ToNumberNatToString(n);
  }
}

=== FILE: list_item.dfy ===
/** One item of the page-extraction virtual list
    (src/components/PageExtractionModal/ListItem.tsx): the padded vertical
    intersection test, the `MAX_HEIGHT` ratchet every item shares, the height
    and visibility handlers, and what `render` shows.

    `MAX_HEIGHT` is a static field of the class, so it is passed in and
    returned explicitly. Rectangles are the vertical extent of
    `getBoundingClientRect()`; an absent element is `None`. The 100 ms scroll
    timer is not modelled: a scroll is handled when its timer fires. */
module ListItem {
  import opened Js

  const DefaultMaxHeight: real := 153.0
  const DefaultPadding: real := 13.0

  /** The vertical extent of a rectangle. */
  datatype Rect = Rect(y: real, height: real)

  /** `doRectanglesIntersect(rect1, rect2, padding)`: rect1 widened by
      `MAX_HEIGHT * padding` above and below overlaps rect2. A missing padding
      argument takes the default 13. Equivalently, the centres of the padded
      rect1 and of rect2 are closer than half their summed heights. */
  predicate Intersects(maxHeight: real, r1: Rect, r2: Rect, padding: Option<real>)
    ensures var p := PaddingOf(maxHeight, padding);
            var d := (r1.y + r1.height / 2.0) - (r2.y + r2.height / 2.0);
            Intersects(maxHeight, r1, r2, padding) <==> (if d < 0.0 then -d else d) < (r1.height + 2.0 * p + r2.height) / 2.0
  {
    var p := PaddingOf(maxHeight, padding);
    r1.y - p < r2.y + r2.height && r1.y + r1.height + p > r2.y
  }

  /** The padding `MAX_HEIGHT * padding` adds above and below rect1. */
  function PaddingOf(maxHeight: real, padding: Option<real>): real
  {
    maxHeight * (if padding.Some? then padding.value else DefaultPadding)
  }

  /** The point `t` lies strictly inside both the padded rect1 and rect2. */
  predicate CommonPoint(t: real, maxHeight: real, r1: Rect, r2: Rect, pad: real)
  {
    var p := PaddingOf(maxHeight, Some(pad));
    r1.y - p < t < r1.y + r1.height + p && r2.y < t < r2.y + r2.height
  }

  /** For boxes of positive extent, the test holds exactly when some point lies
      strictly inside both the padded rect1 and rect2. */
  lemma IntersectsIffCommonPoint(maxHeight: real, r1: Rect, r2: Rect, pad: real)
    requires r2.height > 0.0 && r1.height + 2.0 * PaddingOf(maxHeight, Some(pad)) > 0.0
    ensures Intersects(maxHeight, r1, r2, Some(pad)) <==> exists t :: CommonPoint(t, maxHeight, r1, r2, pad)
  {
    var p := PaddingOf(maxHeight, Some(pad));
    var lo1, hi1, lo2, hi2 := r1.y - p, r1.y + r1.height + p, r2.y, r2.y + r2.height;
    if Intersects(maxHeight, r1, r2, Some(pad)) {
      var lo := if lo1 < lo2 then lo2 else lo1;
      var hi := if hi1 < hi2 then hi1 else hi2;
      assert CommonPoint((lo + hi) / 2.0, maxHeight, r1, r2, pad);
    }
  }

  /** A larger padding never loses an intersection. */
  lemma PaddingMonotone(maxHeight: real, r1: Rect, r2: Rect, p1: real, p2: real)
    requires maxHeight >= 0.0 && p1 <= p2
    requires Intersects(maxHeight, r1, r2, Some(p1))
    ensures Intersects(maxHeight, r1, r2, Some(p2))
  {
    assert maxHeight * (p2 - p1) >= 0.0;
    assert maxHeight * (p2 - p1) == maxHeight * p2 - maxHeight * p1;
  }

  /** Leaving the padding out is passing 13. */
  lemma DefaultPaddingIsThirteen(maxHeight: real, r1: Rect, r2: Rect)
    ensures Intersects(maxHeight, r1, r2, None) == Intersects(maxHeight, r1, r2, Some(13.0))
  {
  }

  /** What the constructor's `render(item)` produced. */
  datatype RenderResult = Immediate(target: Value) | Pending

  datatype ItemState = ItemState(renderTarget: Value, shouldRenderItem: bool, isVisible: bool, height: real)

  /** The event-bus subscriptions an item holds. */
  datatype Subscription = MaxHeightUpdate | Scroll

  datatype Mounted = Mounted(state: ItemState, subscribed: seq<Subscription>)

  /** The constructor: a promise renders nothing until it resolves; height
      starts at 0 and the item starts visible. */
  function Init(result: RenderResult): (m: Mounted)
    ensures m.state.shouldRenderItem <==> result.Immediate?
    ensures result.Immediate? ==> m.state.renderTarget == result.target
    ensures m.state.height == 0.0 && m.state.isVisible
    ensures m.subscribed == [MaxHeightUpdate, Scroll]
  {
    var st := match result
      case Immediate(v) => ItemState(v, true, true, 0.0)
      case Pending => ItemState(Undefined, false, true, 0.0);
    Mounted(st, [MaxHeightUpdate, Scroll])
  }

  /** The render promise resolved. */
  function OnRenderTargetResolved(st: ItemState, v: Value): (r: ItemState)
    ensures r.shouldRenderItem && r.renderTarget == v
    ensures r.isVisible == st.isVisible && r.height == st.height
  {
    st.(renderTarget := v, shouldRenderItem := true)
  }

  /** The shared maximum after one resize measurement. */
  function Ratchet(maxHeight: real, measured: Option<real>): (m: real)
    ensures m >= maxHeight
    ensures m == maxHeight || Some(m) == measured
  {
    if measured.None? || measured.value == 0.0 || measured.value < maxHeight then maxHeight
    else measured.value
  }

  datatype Resized = Resized(maxHeight: real, state: ItemState, broadcast: Option<real>)

  /** The resize callback: an absent, zero or lower measurement is ignored;
      otherwise `MAX_HEIGHT` becomes the measured height, `maxHeightUpdate` is
      broadcast with it, and it becomes the item's height. */
  function OnResize(maxHeight: real, st: ItemState, measured: Option<real>): (r: Resized)
    ensures r.maxHeight == Ratchet(maxHeight, measured)
    ensures r.broadcast.Some? <==> measured.Some? && measured.value != 0.0 && measured.value >= maxHeight
    ensures r.broadcast.Some? ==> r.broadcast.value == r.maxHeight == r.state.height == measured.value
    ensures r.broadcast.None? ==> r.state == st && r.maxHeight == maxHeight
    ensures r.state.(height := st.height) == st
  {
    if measured.None? || measured.value == 0.0 || measured.value < maxHeight then
      Resized(maxHeight, st, None)
    else
      var h := measured.value;
      var newMax := h;
      Resized(newMax, st.(height := if h >= newMax then h else newMax), Some(h))
  }

  /** The shared maximum after a run of measurements, from any item. */
  function RatchetAll(maxHeight: real, ms: seq<Option<real>>): real
  {
    if |ms| == 0 then maxHeight else Ratchet(RatchetAll(maxHeight, ms[..|ms| - 1]), ms[|ms| - 1])
  }

  /** Present non-zero measurement at index i. */
  predicate Measured(ms: seq<Option<real>>, i: int)
  {
    0 <= i < |ms| && ms[i].Some? && ms[i].value != 0.0
  }

  /** `MAX_HEIGHT` is the largest of its start value and the non-zero
      measurements: it bounds them all and is one of them. */
  lemma {:induction false} RatchetAllIsMax(maxHeight: real, ms: seq<Option<real>>)
    ensures RatchetAll(maxHeight, ms) >= maxHeight
    ensures forall i :: Measured(ms, i) ==> RatchetAll(maxHeight, ms) >= ms[i].value
    ensures RatchetAll(maxHeight, ms) == maxHeight
         || exists i :: Measured(ms, i) && RatchetAll(maxHeight, ms) == ms[i].value
    decreases |ms|
  {
    if |ms| > 0 {
      var init := ms[..|ms| - 1];
      var last := |ms| - 1;
      RatchetAllIsMax(maxHeight, init);
      var before := RatchetAll(maxHeight, init);
      var after := RatchetAll(maxHeight, ms);
      forall i | Measured(ms, i)
        ensures after >= ms[i].value
      {
        if i < last {
          assert Measured(init, i);
        }
      }
      if after != maxHeight {
        if after == before {
          var i :| Measured(init, i) && before == init[i].value;
          assert Measured(ms, i);
        } else {
          assert Measured(ms, last);
        }
      }
    }
  }

  /** `componentWillUnmount`: stop observing, drop the scroll subscription,
      and reset the shared maximum to 153. */
  datatype Unmounted = Unmounted(maxHeight: real, unsubscribed: seq<Subscription>)

  function Unmount(): (u: Unmounted)
    ensures u.maxHeight == DefaultMaxHeight
    ensures u.unsubscribed == [Scroll]
  {
    Unmounted(DefaultMaxHeight, [Scroll])
  }

  /** The `maxHeightUpdate` subscription outlives the item: it is taken on
      construction and never dropped. */
  lemma MaxHeightSubscriptionOutlivesItem(result: RenderResult)
    ensures MaxHeightUpdate in Init(result).subscribed
    ensures MaxHeightUpdate !in Unmount().unsubscribed
  {
  }

  /** Another item's `maxHeightUpdate`: a hidden item grows to it. */
  function OnMaxHeightUpdate(st: ItemState, maxHeight: real): (r: ItemState)
    ensures r.height >= st.height
    ensures !st.isVisible ==> r.height >= maxHeight && (r.height == maxHeight || r.height == st.height)
    ensures st.isVisible ==> r == st
    ensures r.(height := st.height) == st
  {
    if !st.isVisible && st.height < maxHeight then st.(height := maxHeight) else st
  }

  /** Broadcasts reach a hidden item in any order with the same result. */
  lemma MaxHeightUpdatesCommute(st: ItemState, a: real, b: real)
    ensures OnMaxHeightUpdate(OnMaxHeightUpdate(st, a), b) == OnMaxHeightUpdate(OnMaxHeightUpdate(st, b), a)
  {
  }

  /** The scroll timer fires: the item is visible exactly when its rectangle
      meets the parent's padded one. Without its element the callback throws
      before any update. */
  function OnParentScroll(maxHeight: real, st: ItemState, parent: Rect, own: Option<Rect>, padding: Option<real>): (r: ItemState)
    ensures own.None? ==> r == st
    ensures own.Some? ==> (r.isVisible <==> Intersects(maxHeight, parent, own.value, padding))
    ensures r.(isVisible := st.isVisible) == st
  {
    if own.None? then st
    else st.(isVisible := Intersects(maxHeight, parent, own.value, padding))
  }

  /** What `render` emits: nothing, or the content and placeholder boxes with
      the common height. */
  datatype View =
    | Empty
    | Boxes(contentShown: bool, placeholderShown: bool, height: real, content: Value)

  function Render(maxHeight: real, st: ItemState): (v: View)
    ensures !st.shouldRenderItem <==> v.Empty?
    ensures v.Boxes? ==> v.contentShown != v.placeholderShown && v.contentShown == st.isVisible
    ensures v.Boxes? ==> v.height >= maxHeight && v.height >= st.height
    ensures v.Boxes? ==> v.height == maxHeight || v.height == st.height
    ensures v.Boxes? ==> v.content == st.renderTarget
  {
    if !st.shouldRenderItem then Empty
    else
      var h := if maxHeight < st.height then st.height else maxHeight;
      Boxes(st.isVisible, !st.isVisible, h, st.renderTarget)
  }

  /** After a growing measurement the item renders at exactly that height. */
  lemma ResizedItemRendersMeasuredHeight(maxHeight: real, st: ItemState, h: real)
    requires st.shouldRenderItem && h != 0.0 && h >= maxHeight
    ensures var r := OnResize(maxHeight, st, Some(h));
            Render(r.maxHeight, r.state).height == h
  {
  }

  /** A hidden item that hears another item's growing measurement keeps that
      height itself: it still renders at least that tall after an unmount has
      reset the shared maximum to 153. */
  lemma HiddenItemKeepsBroadcastHeight(maxHeight: real, other: ItemState, st: ItemState, h: real)
    requires st.shouldRenderItem && !st.isVisible
    requires h != 0.0 && h >= maxHeight
    ensures var r := OnResize(maxHeight, other, Some(h));
            Render(Unmount().maxHeight, OnMaxHeightUpdate(st, r.broadcast.value)).height >= h
  {
  }
}

=== FILE: module_client.dfy ===
/** The client of the platform's WebViewer backend module
    (src/clients/WebViewerModuleClient.tsx). `fetch` is not interpreted: each
    operation takes the outcome the network would produce as a parameter and
    returns the requests it issues and the lines it logs, in order. */
module ModuleClient {
  import opened Js

  type Bytes = seq<bv8>

  datatype Method = Get | Put

  datatype Request = Request(verb: Method, path: string, body: Option<Bytes>)

  /** What one `fetch` call does: it resolves with a response whose body can
      (`Some(text)`) or cannot (`None`) be read, or it throws. */
  datatype FetchOutcome =
    | Responds(status: int, text: Option<string>)
    | Throws

  datatype Effect =
    | Send(request: Request)
    | Info(message: string)
    | Warn(message: string)

  /** How the promise returned by an async operation settles. */
  datatype Settlement<+T> = Resolved(value: T) | Rejected

  /** The effects of a call together with how its promise settles. */
  datatype Call<+T> = Call(effects: seq<Effect>, settlement: Settlement<T>)

  const ModuleProbePath: string := "/rest/version/v1/modules/webviewer"
  const DocumentsPath: string := "/rest/documentstore/v1/documents/"
  const EmptyIdWarning: string := "Empty file ID was provided."
  const SaveFailedMessage: string := "[Module] Failed to save document."

  /** The requests among a sequence of effects, in order: one effect issues
      its own request or none, and a longer sequence issues those of its
      pieces one after the other (`RequestsAppend`). */
  function Requests(effects: seq<Effect>): (rs: seq<Request>)
    ensures |rs| <= |effects|
    ensures forall r :: r in rs <==> Send(r) in effects
    ensures |effects| == 1 && effects[0].Send? ==> rs == [effects[0].request]
    ensures |effects| == 1 && !effects[0].Send? ==> rs == []
  {
    if |effects| == 0 then []
    else
      var rest := Requests(effects[1..]);
      assert effects == [effects[0]] + effects[1..];
      if effects[0].Send? then [effects[0].request] + rest else rest
  }

  lemma {:induction false} RequestsAppend(a: seq<Effect>, b: seq<Effect>)
    ensures Requests(a + b) == Requests(a) + Requests(b)
    decreases |a|
  {
    if |a| > 0 {
      assert (a + b)[0] == a[0];
      assert (a + b)[1..] == a[1..] + b;
      RequestsAppend(a[1..], b);
    } else {
      assert a + b == b;
    }
  }

  /** `checkForModule()`: probes the module's version endpoint once. */
  function CheckForModule(outcome: FetchOutcome): (c: Call<bool>)
    ensures Requests(c.effects) == [Request(Get, ModuleProbePath, None)]
    ensures c.settlement.Resolved?
    ensures c.settlement.value <==> outcome.Responds? && outcome.text.Some?
    ensures |c.effects| == 2
    ensures outcome.Responds? && outcome.text.Some? ==> c.effects[1] == Info("[Module] Connected: " + outcome.text.value)
    ensures !(outcome.Responds? && outcome.text.Some?) ==> c.effects[1] == Info("[Module] Not detected.")
  {
    var probe := Send(Request(Get, ModuleProbePath, None));
    match outcome
    case Responds(_, Some(text)) =>
      Call([probe, Info("[Module] Connected: " + text)], Resolved(true))
    case _ =>
      Call([probe, Info("[Module] Not detected.")], Resolved(false))
  }

  /** The document resource a file id addresses, `${fileId}` appended. */
  function DocumentPath(fileId: Value): (p: string)
    ensures |p| >= |DocumentsPath| && p[..|DocumentsPath|] == DocumentsPath
  {
    DocumentsPath + Display(fileId)
  }

  /** Recovers the id text from a document path. */
  function DocumentIdText(path: string): string
    requires |path| >= |DocumentsPath|
  {
    path[|DocumentsPath|..]
  }

  lemma DocumentPathRoundTrip(fileId: Value)
    ensures DocumentIdText(DocumentPath(fileId)) == Display(fileId)
  {
  }

  /** Distinct id texts address distinct documents. */
  lemma DocumentPathInjective(a: Value, b: Value)
    requires Display(a) != Display(b)
    ensures DocumentPath(a) != DocumentPath(b)
  {
    DocumentPathRoundTrip(a);
    DocumentPathRoundTrip(b);
  }

  /** `updateFile(fileId, fileData)`: a falsy id only warns; otherwise one PUT
      of the bytes to the document path. A thrown fetch is logged, the HTTP
      status is never looked at, and the returned promise always resolves. */
  function UpdateFile(fileId: Value, data: Bytes, outcome: FetchOutcome): (c: Call<()>)
    ensures c.settlement.Resolved?
    ensures !Truthy(fileId) ==> c.effects == [Warn(EmptyIdWarning)]
    ensures Truthy(fileId) ==> Requests(c.effects) == [Request(Put, DocumentPath(fileId), Some(data))]
    ensures Truthy(fileId) ==> c.effects[0] == Send(Request(Put, DocumentPath(fileId), Some(data)))
    ensures Warn(EmptyIdWarning) in c.effects <==> !Truthy(fileId)
    ensures Truthy(fileId) && outcome.Throws? ==> c.effects[1..] == [Info(SaveFailedMessage)]
    ensures Truthy(fileId) && outcome.Responds? ==> |c.effects| == 1
  {
    if !Truthy(fileId) then
      Call([Warn(EmptyIdWarning)], Resolved(()))
    else
      var put := Send(Request(Put, DocumentPath(fileId), Some(data)));
      match outcome
      case Throws => Call([put, Info(SaveFailedMessage)], Resolved(()))
      case Responds(_, _) => Call([put], Resolved(()))
  }

  /** Whatever the HTTP status, the update behaves the same. */
  lemma UpdateFileIgnoresStatus(fileId: Value, data: Bytes, s1: int, s2: int, t1: Option<string>, t2: Option<string>)
    ensures UpdateFile(fileId, data, Responds(s1, t1)) == UpdateFile(fileId, data, Responds(s2, t2))
  {
  }

  /** Whatever the HTTP status, the probe reports the module as present. */
  lemma CheckForModuleIgnoresStatus(s1: int, s2: int, text: string)
    ensures CheckForModule(Responds(s1, Some(text))) == CheckForModule(Responds(s2, Some(text)))
    ensures CheckForModule(Responds(s1, Some(text))).settlement == Resolved(true)
  {
  }
}

=== FILE: page_range.dfy ===
/** The page-range rule of the page-extraction thumbnails
    (`onFileInputChanged` in
    src/components/PageExtractionModal/PageExtractionThumbnail.tsx): given the
    text of the "pages" input and one page number, whether that page is
    selected and whether it is disabled.

    The input is split on `,` and the parts are sorted as strings; every part
    is split on `-` and its pieces sorted as strings again, so range bounds are
    ordered lexicographically, not numerically. Pieces are converted with the
    restricted `Js.ToNumber`, where NaN (`None`) fails every comparison. */
module PageRange {
  import opened Js
  import opened Strings

  /** `page >= bound`; false against NaN. */
  predicate AtLeast(page: int, bound: Option<nat>)
  {
    bound.Some? && page >= bound.value
  }

  /** `page <= bound`; false against NaN. */
  predicate AtMost(page: int, bound: Option<nat>)
  {
    bound.Some? && page <= bound.value
  }

  /** The comma-separated parts, in the order the loop visits them. */
  function Parts(input: string): seq<string>
  {
    Sort(Split(input, ','))
  }

  /** A part's `-`-separated pieces, sorted. */
  function Pieces(part: string): seq<string>
  {
    Sort(Split(part, '-'))
  }

  /** A part is a range when it splits into exactly two pieces. */
  predicate IsRange(part: string)
  {
    |Split(part, '-')| == 2
  }

  /** A range part whose sorted bounds bracket the page. */
  predicate RangeHit(part: string, page: int)
  {
    IsRange(part) && AtLeast(page, ToNumber(Pieces(part)[0])) && AtMost(page, ToNumber(Pieces(part)[1]))
  }

  /** A part that is not a range and whose number is the page. */
  predicate ExactHit(part: string, page: int)
  {
    !IsRange(part) && ToNumber(part) == Some(page)
  }

  predicate Covers(part: string, page: int)
  {
    RangeHit(part, page) || ExactHit(part, page)
  }

  /** The loop's two variables, `isSelected` and `occurrances`. */
  datatype Tally = Tally(isSelected: bool, occurrences: int)

  /** The loop keeps the counter non-negative and counts only once the page
      is selected. */
  predicate Counted(t: Tally)
  {
    t.occurrences >= 0 && (t.occurrences > 0 ==> t.isSelected)
  }

  /** One iteration of the loop. In a range hit, `occurrances ? occurrances++ : 2`
      assigns the post-increment's value, the old count, back to the counter,
      so a non-zero counter is left unchanged. An iteration never deselects
      the page nor lowers the counter, and it keeps `Counted`. */
  function Visit(t: Tally, part: string, page: int): (r: Tally)
    ensures t.isSelected ==> r.isSelected
    ensures r.occurrences >= t.occurrences
    ensures Counted(t) ==> Counted(r)
  {
    var rangeParts := Pieces(part);
    if |rangeParts| == 2 then
      if AtLeast(page, ToNumber(rangeParts[0])) && AtMost(page, ToNumber(rangeParts[1])) then
        Tally(true, if t.occurrences != 0 then t.occurrences else 2)
      else t
    else if ToNumber(part) == Some(page) then
      NumberedPartIsOnePiece(part);
      Tally(ToNumber(rangeParts[0]) == Some(page), t.occurrences + 1)
    else t
  }

  /** The loop over the parts, from `isSelected = false, occurrances = 0`. */
  function Scan(parts: seq<string>, page: int): (r: Tally)
    ensures Counted(r)
    decreases |parts|
  {
    if |parts| == 0 then Tally(false, 0)
    else Visit(Scan(parts[..|parts| - 1], page), parts[|parts| - 1], page)
  }

  /** The state `onFileInputChanged` writes for one page. */
  datatype Selection = Selection(isSelected: bool, isDisabled: bool)

  /** The state written for one page: a disabled page is always selected. */
  function Evaluate(input: string, page: int): (r: Selection)
    ensures r.isDisabled ==> r.isSelected
  {
    var t := Scan(Parts(input), page);
    Selection(t.isSelected, t.occurrences > 1)
  }

  /** A part with a number has no `-`, so it is its own single piece. */
  lemma NumberedPartIsOnePiece(part: string)
    requires ToNumber(part).Some?
    ensures Split(part, '-') == [part] && Pieces(part) == [part]
  {
    assert '-' !in part by {
      forall i | 0 <= i < |part|
        ensures part[i] != '-'
      {
        assert IsDigit(part[i]) || IsSpace(part[i]);
      }
    }
    SplitWithoutSeparator(part, '-');
  }

  /** How one part relates to the page. */
  datatype Hit = RangeHitKind | ExactHitKind | NoHit

  function Classify(part: string, page: int): (h: Hit)
    ensures h == RangeHitKind <==> RangeHit(part, page)
    ensures h == ExactHitKind <==> ExactHit(part, page)
  {
    if RangeHit(part, page) then RangeHitKind
    else if ExactHit(part, page) then ExactHitKind
    else NoHit
  }

  /** One iteration by kind of hit: any hit selects; a range hit sets a zero
      counter to 2 and leaves any other alone; an exact hit adds one. */
  function Bump(t: Tally, h: Hit): Tally
  {
    match h
    case RangeHitKind => Tally(true, if t.occurrences != 0 then t.occurrences else 2)
    case ExactHitKind => Tally(true, t.occurrences + 1)
    case NoHit => t
  }

  lemma VisitIsBump(t: Tally, part: string, page: int)
    ensures Visit(t, part, page) == Bump(t, Classify(part, page))
  {
    if ToNumber(part).Some? {
      NumberedPartIsOnePiece(part);
    }
  }

  /** The loop over already classified parts. */
  function ScanHits(hs: seq<Hit>): Tally
  {
    if |hs| == 0 then Tally(false, 0) else Bump(ScanHits(hs[..|hs| - 1]), hs[|hs| - 1])
  }

  function Classified(parts: seq<string>, page: int): (hs: seq<Hit>)
    ensures |hs| == |parts|
    ensures forall i :: 0 <= i < |parts| ==> hs[i] == Classify(parts[i], page)
  {
    seq(|parts|, i requires 0 <= i < |parts| => Classify(parts[i], page))
  }

  lemma {:induction false} ScanIsScanHits(parts: seq<string>, page: int)
    ensures Scan(parts, page) == ScanHits(Classified(parts, page))
    decreases |parts|
  {
    if |parts| > 0 {
      var init := parts[..|parts| - 1];
      ScanIsScanHits(init, page);
      assert Classified(parts, page)[..|parts| - 1] == Classified(init, page);
      VisitIsBump(Scan(init, page), parts[|parts| - 1], page);
    }
  }

  /** The first hit is a range hit: some range hit has no exact hit before it. */
  predicate FirstHitIsRange(hs: seq<Hit>)
  {
    exists i :: 0 <= i < |hs| && hs[i] == RangeHitKind && forall j :: 0 <= j < i ==> hs[j] != ExactHitKind
  }

  predicate AnyHit(hs: seq<Hit>)
  {
    exists i :: 0 <= i < |hs| && hs[i] != NoHit
  }

  /** A hit appended at the end: some part hits iff one did before or the new
      one does. */
  lemma AnyHitSnoc(init: seq<Hit>, x: Hit)
    ensures AnyHit(init + [x]) <==> AnyHit(init) || x != NoHit
  {
    var hs := init + [x];
    if AnyHit(init) {
      var i :| 0 <= i < |init| && init[i] != NoHit;
      assert hs[i] == init[i];
    }
    if AnyHit(hs) {
      var i :| 0 <= i < |hs| && hs[i] != NoHit;
      if i < |init| {
        assert init[i] == hs[i];
      }
    }
    if x != NoHit {
      assert hs[|init|] == x;
    }
  }

  /** A hit appended at the end is the first hit that is a range exactly when
      it is a range hit and no exact hit came before it. */
  lemma FirstHitIsRangeSnoc(init: seq<Hit>, x: Hit)
    ensures FirstHitIsRange(init + [x]) <==> FirstHitIsRange(init) || (x == RangeHitKind && ExactHitKind !in init)
  {
    var hs := init + [x];
    if FirstHitIsRange(init) {
      var i :| 0 <= i < |init| && init[i] == RangeHitKind && forall j :: 0 <= j < i ==> init[j] != ExactHitKind;
      assert hs[i] == RangeHitKind && forall j :: 0 <= j < i ==> hs[j] == init[j];
    }
    if x == RangeHitKind && ExactHitKind !in init {
      assert hs[|init|] == RangeHitKind && forall j :: 0 <= j < |init| ==> hs[j] == init[j];
    }
    if FirstHitIsRange(hs) {
      var i :| 0 <= i < |hs| && hs[i] == RangeHitKind && forall j :: 0 <= j < i ==> hs[j] != ExactHitKind;
      assert forall j :: 0 <= j < |init| ==> hs[j] == init[j];
      if i < |init| {
        assert init[i] == RangeHitKind;
      } else {
        assert forall j :: 0 <= j < |init| ==> init[j] != ExactHitKind;
      }
    }
  }

  /** Closed form of the loop: selected exactly when some part hits; the
      counter is the number of exact hits, plus 2 when the first hit is a
      range hit. */
  lemma {:induction false} ScanHitsClosedForm(hs: seq<Hit>)
    ensures ScanHits(hs).isSelected <==> AnyHit(hs)
    ensures ScanHits(hs).occurrences == multiset(hs)[ExactHitKind] + (if FirstHitIsRange(hs) then 2 else 0)
    decreases |hs|
  {
    if |hs| > 0 {
      var init := hs[..|hs| - 1];
      var x := hs[|hs| - 1];
      assert hs == init + [x];
      ScanHitsClosedForm(init);
      AnyHitSnoc(init, x);
      FirstHitIsRangeSnoc(init, x);
      assert multiset(hs) == multiset(init) + multiset{x};
      assert ExactHitKind !in init <==> multiset(init)[ExactHitKind] == 0;
    }
  }

  /** After an input change the page is selected exactly when some
      comma-separated part covers it. */
  lemma SelectedIffCovered(input: string, page: int)
    ensures Evaluate(input, page).isSelected <==> exists part :: part in Split(input, ',') && Covers(part, page)
  {
    var parts := Parts(input);
    var hs := Classified(parts, page);
    ScanIsScanHits(parts, page);
    ScanHitsClosedForm(hs);
    if AnyHit(hs) {
      var i :| 0 <= i < |hs| && hs[i] != NoHit;
      assert parts[i] in multiset(Split(input, ','));
      assert Covers(parts[i], page);
    }
    forall part | part in Split(input, ',') && Covers(part, page)
      ensures AnyHit(hs)
    {
      assert part in multiset(parts);
      var i :| 0 <= i < |parts| && parts[i] == part;
      assert hs[i] != NoHit;
    }
  }

  /** After an input change the page is disabled exactly when two or more
      parts are exact hits, or when, in sorted order, the first part that
      covers the page is a range. */
  lemma DisabledIff(input: string, page: int)
    ensures var hs := Classified(Parts(input), page);
            Evaluate(input, page).isDisabled <==> multiset(hs)[ExactHitKind] >= 2 || FirstHitIsRange(hs)
  {
    ScanIsScanHits(Parts(input), page);
    ScanHitsClosedForm(Classified(Parts(input), page));
  }

  /** Only the multiset of comma-separated parts matters, not their order. */
  lemma EvaluateDependsOnlyOnParts(a: string, b: string, page: int)
    requires multiset(Split(a, ',')) == multiset(Split(b, ','))
    ensures Evaluate(a, page) == Evaluate(b, page)
  {
    SortPermutationInvariant(Split(a, ','), Split(b, ','));
  }

  /** Listing the same parts in another order gives the same selection. */
  lemma PermutedPartsSameSelection(ps: seq<string>, qs: seq<string>, page: int)
    requires |ps| > 0
    requires forall i :: 0 <= i < |ps| ==> ',' !in ps[i]
    requires multiset(ps) == multiset(qs)
    ensures Evaluate(Join(ps, ','), page) == Evaluate(Join(qs, ','), page)
  {
    assert |qs| == |multiset(qs)| == |multiset(ps)| == |ps|;
    forall i | 0 <= i < |qs|
      ensures ',' !in qs[i]
    {
      assert qs[i] in multiset(ps);
    }
    SplitJoin(ps, ',');
    SplitJoin(qs, ',');
    EvaluateDependsOnlyOnParts(Join(ps, ','), Join(qs, ','), page);
  }

  /** A part with two or more `-` is neither a range nor an exact match. */
  lemma ManyDashesCoverNothing(part: string, page: int)
    requires multiset(part)['-'] >= 2
    ensures !Covers(part, page)
  {
    assert '-' in part;
    var k :| 0 <= k < |part| && part[k] == '-';
    assert !IsDigit(part[k]) && !IsSpace(part[k]);
  }

  /** A part with exactly one `-` is a range. */
  lemma OneDashIsRange(part: string)
    ensures IsRange(part) <==> multiset(part)['-'] == 1
  {
  }

  lemma DigitsHaveNoDash(a: string)
    requires AllDigits(a)
    ensures '-' !in a && ',' !in a
  {
    forall i | 0 <= i < |a| ensures a[i] != '-' && a[i] != ',' { assert IsDigit(a[i]); }
  }

  /** The default sort of two strings. */
  lemma SortPair(a: string, b: string)
    ensures Sort([a, b]) == if LexLe(a, b) then [a, b] else [b, a]
  {
    assert [a, b][1..] == [b];
    assert Sort([b]) == [b] by { assert [b][1..] == []; }
  }

  /** The bounds of a range `a-b` of digit strings are the two strings in
      lexicographic order, whatever their numeric order. */
  lemma RangeBoundsAreLexicographic(a: string, b: string)
    requires |a| > 0 && |b| > 0 && AllDigits(a) && AllDigits(b)
    ensures IsRange(a + "-" + b)
    ensures Pieces(a + "-" + b) == if LexLe(a, b) then [a, b] else [b, a]
  {
    DigitsHaveNoDash(a);
    DigitsHaveNoDash(b);
    SplitAfterPiece(a, '-', b);
    SplitWithoutSeparator(b, '-');
    assert a + "-" + b == a + ['-'] + b;
    SortPair(a, b);
  }

  /** A range `a-b` of digit strings covers exactly the pages between the
      value of the lexicographically smaller and that of the larger string. */
  lemma DigitRangeCovers(a: string, b: string, page: int)
    requires |a| > 0 && |b| > 0 && AllDigits(a) && AllDigits(b)
    ensures var lo := if LexLe(a, b) then a else b;
            var hi := if LexLe(a, b) then b else a;
            Covers(a + "-" + b, page) <==> DigitsValue(lo) <= page <= DigitsValue(hi)
  {
    RangeBoundsAreLexicographic(a, b);
    if LexLe(a, b) {
      RangeCoversBetween(a + "-" + b, a, b, page);
    } else {
      RangeCoversBetween(a + "-" + b, b, a, page);
    }
  }

  /** A range whose sorted pieces are two digit strings covers the pages
      between their values. */
  lemma RangeCoversBetween(part: string, lo: string, hi: string, page: int)
    requires IsRange(part) && Pieces(part) == [lo, hi]
    requires |lo| > 0 && |hi| > 0 && AllDigits(lo) && AllDigits(hi)
    ensures Covers(part, page) <==> DigitsValue(lo) <= page <= DigitsValue(hi)
  {
  }

  /** An input without a comma is one part, and the loop visits it alone. */
  lemma SinglePart(part: string, page: int)
    requires ',' !in part
    ensures Evaluate(part, page) == Selection(Classify(part, page) != NoHit, Classify(part, page) == RangeHitKind)
  {
    SplitWithoutSeparator(part, ',');
    assert Parts(part) == [part] by { assert [part][1..] == []; }
    ScanIsScanHits([part], page);
    var hs := Classified([part], page);
    assert hs == [Classify(part, page)];
    assert hs[..0] == [];
  }

  lemma OneClassify(page: int)
    ensures ',' !in "1"
    ensures Classify("1", page) == if page == 1 then ExactHitKind else NoHit
  {
    OneAndRangeText();
    SplitWithoutSeparator("1", '-');
  }

  /** The input "1" selects page 1 alone and disables nothing. */
  lemma InputOne(page: int)
    ensures Evaluate("1", page) == Selection(page == 1, false)
  {
    OneClassify(page);
    SinglePart("1", page);
  }

  /** A single range part that covers the page selects and disables it. */
  lemma LoneRangeDisables(part: string, page: int)
    requires ',' !in part
    requires RangeHit(part, page)
    ensures Evaluate(part, page) == Selection(true, true)
  {
    SinglePart(part, page);
  }

  /** How a range of digit strings classifies a page. */
  lemma DigitRangeClassify(a: string, b: string, page: int)
    requires |a| > 0 && |b| > 0 && AllDigits(a) && AllDigits(b)
    ensures ',' !in a + "-" + b
    ensures var lo := if LexLe(a, b) then a else b;
            var hi := if LexLe(a, b) then b else a;
            Classify(a + "-" + b, page) == if DigitsValue(lo) <= page <= DigitsValue(hi) then RangeHitKind else NoHit
  {
    DigitRangeCovers(a, b, page);
    DigitsHaveNoDash(a);
    DigitsHaveNoDash(b);
    assert ExactHit(a + "-" + b, page) ==> !IsRange(a + "-" + b);
  }

  lemma TwoToTenText()
    ensures "2" + "-" + "10" == "2-10"
    ensures DigitsValue("10") == 10
    ensures LexLe("10", "2") && !LexLe("2", "10")
  {
    assert "10"[..1] == "1";
  }

  lemma TwoToTenCoversNothing(page: int)
    ensures ',' !in "2-10"
    ensures Classify("2-10", page) == NoHit
  {
    TwoToTenText();
    DigitRangeClassify("2", "10", page);
  }

  /** "2-10" selects nothing: its bounds sort to 10 and 2. */
  lemma ReversedBoundsSelectNothing(page: int)
    ensures Evaluate("2-10", page) == Selection(false, false)
  {
    TwoToTenCoversNothing(page);
    SinglePart("2-10", page);
  }

  lemma OneToThreeText()
    ensures "1" + "-" + "3" == "1-3"
    ensures LexLe("1", "3") && DigitsValue("1") == 1 && DigitsValue("3") == 3
  {
  }

  lemma OneToThreeCoversOne()
    ensures ',' !in "1-3"
    ensures Classify("1-3", 1) == RangeHitKind
  {
    OneToThreeText();
    DigitRangeClassify("1", "3", 1);
  }

  lemma OneAndRangeText()
    ensures "1" + [','] + "1-3" == "1,1-3"
    ensures LexLe("1", "1-3")
    ensures ',' !in "1" && ',' !in "1-3" && '-' !in "1"
  {
  }

  lemma PartsOfOneAndRange()
    ensures Parts("1,1-3") == ["1", "1-3"]
  {
    OneAndRangeText();
    SplitAfterPiece("1", ',', "1-3");
    SplitWithoutSeparator("1-3", ',');
    SortPair("1", "1-3");
  }

  lemma OneIsExact()
    ensures Classify("1", 1) == ExactHitKind
  {
    OneAndRangeText();
    SplitWithoutSeparator("1", '-');
  }

  /** The loop over an exact hit followed by a range hit. */
  lemma ExactThenRange()
    ensures ScanHits([ExactHitKind, RangeHitKind]) == Tally(true, 1)
  {
    var hs := [ExactHitKind, RangeHitKind];
    assert hs[..1] == [ExactHitKind] && hs[..1][..0] == [];
  }

  lemma ClassifiedPair(a: string, b: string, page: int)
    ensures Classified([a, b], page) == [Classify(a, page), Classify(b, page)]
  {
  }

  /** The evaluation through the classified parts. */
  lemma EvaluateByHits(input: string, page: int)
    ensures var t := ScanHits(Classified(Parts(input), page));
            Evaluate(input, page) == Selection(t.isSelected, t.occurrences > 1)
  {
    ScanIsScanHits(Parts(input), page);
  }

  /** A lone range "1-3" selects page 1 and disables it. */
  lemma RangeAloneDisablesOne()
    ensures Evaluate("1-3", 1) == Selection(true, true)
  {
    OneToThreeCoversOne();
    SinglePart("1-3", 1);
  }

  /** "1,1-3" leaves page 1 selected and enabled: the exact part sorts first,
      the counter becomes 1, and the range hit leaves it there. */
  lemma ExactBeforeRangeKeepsEnabled()
    ensures Evaluate("1,1-3", 1) == Selection(true, false)
  {
    EvaluateByHits("1,1-3", 1);
    PartsOfOneAndRange();
    ClassifiedPair("1", "1-3", 1);
    OneIsExact();
    OneToThreeCoversOne();
    ExactThenRange();
  }
}

=== FILE: pdf_viewer.dfy ===
/** The decisions of the viewer component (src/components/PDFViewer.tsx).

    Props and state are immutable records; JavaScript truthiness is explicit
    through `Js.Truthy`. Every handler is a function that returns the effects
    it performs, in order, and, where it changes component state, the new
    state. Calls into the document SDK are effect labels whose results are
    parameters (`xfdf` for an annotation export, `data` for the file bytes).
    State updates are taken to apply immediately. */
module PdfViewer {
  import opened Js
  import MC = ModuleClient

  /** Availability of a platform attribute. */
  datatype Status = Available | Loading | Unavailable

  /** A bound platform attribute: its value, whether it may be written, and
      whether it is available. */
  datatype Attribute = Attribute(status: Status, value: Value, readOnly: bool)

  /** The props the decisions read. `None` is an attribute prop that was not
      supplied; optional booleans read `undefined` as `false`. */
  datatype Props = Props(
    fileUrl: Value,
    fileUrlAttribute: Option<Attribute>,
    fileIdAttribute: Option<Attribute>,
    xfdfAttribute: Option<Attribute>,
    annotationUser: Value,
    defaultLanguage: string,
    enableDarkMode: bool,
    enabledElements: string,
    enableXfdfExportButton: bool,
    enableAutoXfdfExport: bool,
    enableAutoXfdfImport: bool,
    enableDocumentUpdates: bool,
    enableSaveAsButton: bool,
    isVisible: Value)

  /** The component state; `hasInstance` stands for `wvInstance` being set. */
  datatype ViewerState = ViewerState(hasInstance: bool, isDocumentLoaded: bool, currentFileId: Value)

  datatype Button = SaveDocumentButton | SaveAsButton | SaveXfdfButton

  datatype Event = DocumentLoaded | DocumentUnloaded | AnnotationChanged

  datatype Handler =
    | SetLoaded(loaded: bool)
    | UpdateXfdf
    | Debounced(waitMs: nat, inner: Handler)

  datatype Effect =
    | SetLanguage(language: string)
    | SetTheme(theme: string)
    | EnableElements(elements: string)
    | ProbeModule
    | AddListener(event: Event, handler: Handler)
    | SetCurrentUser(user: Value)
    | LoadDocument(source: Value)
    | AddHeaderButton(button: Button)
    | Warning(message: string)
    | ExportAnnotations(fieldsLinksWidgets: bool)
    | GetFileData(xfdf: string)
    | Client(effect: MC.Effect)
    | SaveFile(data: MC.Bytes)
    | StartDelay(ms: nat)
    | OpenLoadingModal
    | AwaitAll(count: nat)
    | CloseLoadingModal
    | SetXfdfAttribute(exported: string)
    | ImportAnnotations(markup: Value)
    | InstallXfdfRetriever
    | SetCurrentFileId(id: Value)
    | Dispose

  /** Effects together with the state they leave behind. */
  datatype Step = Step(effects: seq<Effect>, state: ViewerState)

  const SaveDelayMs: nat := 3000
  const XfdfDebounceMs: nat := 1000
  const ReadOnlyWarning: string :=
    "The XFDF attribute is read-only. Please check the user permissions or allow the data source to be editable."
  const MissingXfdfWarning: string := "There was no XFDF attribute provided to the WebViewer component."

  const InitialState: ViewerState := ViewerState(false, false, Undefined)

  /** `hasAttribute`: the attribute is supplied and available; a loading or
      unavailable attribute does not count. The contracts of the members that
      read attributes state what follows from it. */
  predicate HasAttribute(a: Option<Attribute>)
  {
    a.Some? && a.value.status == Available
  }

  /** The document loaded on mount: an available URL attribute wins; the
      plain URL is used only when no URL attribute is supplied at all. */
  function DocumentSource(p: Props): (src: Option<Value>)
    ensures HasAttribute(p.fileUrlAttribute) ==> src == Some(p.fileUrlAttribute.value.value)
    ensures p.fileUrlAttribute.Some? && !HasAttribute(p.fileUrlAttribute) ==> src == None
    ensures p.fileUrlAttribute.None? ==> (src.Some? <==> Truthy(p.fileUrl))
    ensures src.Some? ==> src.value == p.fileUrl || HasAttribute(p.fileUrlAttribute)
  {
    if HasAttribute(p.fileUrlAttribute) then Some(p.fileUrlAttribute.value.value)
    else if Truthy(p.fileUrl) && p.fileUrlAttribute.None? then Some(p.fileUrl)
    else None
  }

  /** Mount takes the file id from the id attribute only when it is available. */
  function BindFileId(p: Props, s: ViewerState): (s': ViewerState)
    ensures s'.hasInstance == s.hasInstance && s'.isDocumentLoaded == s.isDocumentLoaded
    ensures HasAttribute(p.fileIdAttribute) ==> s'.currentFileId == p.fileIdAttribute.value.value
    ensures !HasAttribute(p.fileIdAttribute) ==> s'.currentFileId == s.currentFileId
  {
    if HasAttribute(p.fileIdAttribute) then s.(currentFileId := p.fileIdAttribute.value.value) else s
  }

  /** The `documentLoaded` and `documentUnloaded` listeners. */
  function OnLoadedChange(s: ViewerState, loaded: bool): (s': ViewerState)
    ensures s'.isDocumentLoaded == loaded
    ensures s'.currentFileId == s.currentFileId && s'.hasInstance == s.hasInstance
  {
    s.(isDocumentLoaded := loaded)
  }

  /** `updateXfdfAttribute(annotations, action, info)`. `info` is `None` when
      falsy, otherwise `Some` of its `imported` field. `exported` is what the
      annotation export yields. */
  function UpdateXfdfAttribute(info: Option<Value>, documentExists: bool, exported: string): (e: seq<Effect>)
    ensures e == [] <==> (info.Some? && Truthy(info.value)) || !documentExists
    ensures e != [] ==> e == [ExportAnnotations(false), SetXfdfAttribute(exported)]
  {
    if info.Some? && Truthy(info.value) then []
    else if !documentExists then []
    else [ExportAnnotations(false), SetXfdfAttribute(exported)]
  }

  /** The only effects the XFDF wiring performs: the read-only warning, the
      Save XFDF button and the debounced change listener. */
  predicate IsWiringEffect(x: Effect)
  {
    || x == Warning(ReadOnlyWarning)
    || x == AddHeaderButton(SaveXfdfButton)
    || x == AddListener(AnnotationChanged, Debounced(XfdfDebounceMs, UpdateXfdf))
  }

  /** The only effects the auto-import performs: the missing-attribute
      warning, an import, or installing the retriever. */
  predicate IsImportEffect(x: Effect)
  {
    x == Warning(MissingXfdfWarning) || x.ImportAnnotations? || x == InstallXfdfRetriever
  }

  /** Mount-time wiring of the XFDF export: only for an available attribute;
      a read-only one only warns. */
  function XfdfWiring(p: Props): (e: seq<Effect>)
    ensures !HasAttribute(p.xfdfAttribute) ==> e == []
    ensures HasAttribute(p.xfdfAttribute) && p.xfdfAttribute.value.readOnly ==> e == [Warning(ReadOnlyWarning)]
    ensures AddHeaderButton(SaveXfdfButton) in e <==>
              HasAttribute(p.xfdfAttribute) && !p.xfdfAttribute.value.readOnly && p.enableXfdfExportButton
    ensures (exists h :: AddListener(AnnotationChanged, h) in e) <==>
              HasAttribute(p.xfdfAttribute) && !p.xfdfAttribute.value.readOnly && p.enableAutoXfdfExport
    ensures forall h :: AddListener(AnnotationChanged, h) in e ==> h == Debounced(XfdfDebounceMs, UpdateXfdf)
    ensures Warning(ReadOnlyWarning) in e <==> HasAttribute(p.xfdfAttribute) && p.xfdfAttribute.value.readOnly
    ensures forall x :: x in e ==> IsWiringEffect(x)
  {
    if !HasAttribute(p.xfdfAttribute) then []
    else if p.xfdfAttribute.value.readOnly then [Warning(ReadOnlyWarning)]
    else
      (if p.enableXfdfExportButton then [AddHeaderButton(SaveXfdfButton)] else [])
      + (if p.enableAutoXfdfExport then [AddListener(AnnotationChanged, Debounced(XfdfDebounceMs, UpdateXfdf))] else [])
  }

  /** Mount-time auto-import: considered only with the option enabled and a
      truthy current file id. */
  function AutoImport(p: Props, s: ViewerState): (e: seq<Effect>)
    ensures !(p.enableAutoXfdfImport && Truthy(s.currentFileId)) ==> e == []
    ensures |e| <= 1
    ensures Warning(MissingXfdfWarning) in e <==>
              p.enableAutoXfdfImport && Truthy(s.currentFileId) && p.xfdfAttribute.None?
    ensures (exists x :: ImportAnnotations(x) in e) <==>
              p.enableAutoXfdfImport && Truthy(s.currentFileId) && HasAttribute(p.xfdfAttribute) && s.isDocumentLoaded
    ensures InstallXfdfRetriever in e <==>
              p.enableAutoXfdfImport && Truthy(s.currentFileId) && HasAttribute(p.xfdfAttribute) && !s.isDocumentLoaded
    ensures forall x :: ImportAnnotations(x) in e ==> x == p.xfdfAttribute.value.value
    ensures forall x :: x in e ==> IsImportEffect(x)
  {
    if !(p.enableAutoXfdfImport && Truthy(s.currentFileId)) then []
    else if p.xfdfAttribute.None? then [Warning(MissingXfdfWarning)]
    else if HasAttribute(p.xfdfAttribute) then
      if s.isDocumentLoaded then [ImportAnnotations(p.xfdfAttribute.value.value)]
      else [InstallXfdfRetriever]
    else []
  }

  /** What the installed XFDF retriever yields when the SDK calls it, read
      from the props and state at call time. */
  datatype Retrieved = Returns(xfdf: Value) | ReturnsUndefined | RetrieverRejects

  function Retriever(p: Props, s: ViewerState): (r: Retrieved)
    ensures r.Returns? ==> Truthy(s.currentFileId) && p.enableAutoXfdfImport
                           && p.xfdfAttribute.Some? && r.xfdf == p.xfdfAttribute.value.value
    ensures r == RetrieverRejects <==> Truthy(s.currentFileId) && p.enableAutoXfdfImport && p.xfdfAttribute.None?
    ensures r == ReturnsUndefined <==> !(Truthy(s.currentFileId) && p.enableAutoXfdfImport)
  {
    if Truthy(s.currentFileId) && p.enableAutoXfdfImport then
      match p.xfdfAttribute
      case Some(a) => Returns(a.value)
      case None => RetrieverRejects
    else ReturnsUndefined
  }

  /** The effects mount performs before the document is loaded: language,
      theme, enabled elements, the module probe, the document listeners and
      the annotation user. */
  predicate IsSetupEffect(x: Effect)
  {
    || x.SetLanguage? || x.SetTheme? || x.EnableElements? || x.ProbeModule? || x.SetCurrentUser?
    || (x.AddListener? && x.event != AnnotationChanged)
  }

  /** Mount's first effects, in order. */
  function Setup(p: Props): (e: seq<Effect>)
    ensures forall x :: x in e ==> IsSetupEffect(x)
    ensures |e| > 0 && e[0] == SetLanguage(p.defaultLanguage)
    ensures AddListener(DocumentLoaded, SetLoaded(true)) in e
    ensures AddListener(DocumentUnloaded, SetLoaded(false)) in e
    ensures SetTheme("dark") in e <==> p.enableDarkMode
    ensures SetCurrentUser(p.annotationUser) in e <==> Truthy(p.annotationUser)
    ensures EnableElements(p.enabledElements) in e <==> p.enabledElements != ""
    ensures ProbeModule in e
  {
    [SetLanguage(p.defaultLanguage)]
    + Optional(p.enableDarkMode, SetTheme("dark"))
    + Optional(p.enabledElements != "", EnableElements(p.enabledElements))
    + [ProbeModule, AddListener(DocumentLoaded, SetLoaded(true)), AddListener(DocumentUnloaded, SetLoaded(false))]
    + Optional(Truthy(p.annotationUser), SetCurrentUser(p.annotationUser))
  }

  /** An effect performed only under a JavaScript `if`. */
  function Optional(cond: bool, x: Effect): (e: seq<Effect>)
    ensures forall y :: y in e <==> cond && y == x
  {
    if cond then [x] else []
  }

  /** The effects and state change of mounting, once the SDK instance exists.
      The XFDF wiring and the auto-import come last, and the auto-import sees
      the file id just bound from the id attribute. */
  function Mount(p: Props, s: ViewerState): (m: Step)
    ensures m.state.hasInstance && m.state.isDocumentLoaded == s.isDocumentLoaded
    ensures m.state.currentFileId == BindFileId(p, s).currentFileId
    ensures forall u :: LoadDocument(u) in m.effects <==> DocumentSource(p) == Some(u)
    ensures |m.effects| > 0 && m.effects[0] == SetLanguage(p.defaultLanguage)
    ensures AddListener(DocumentLoaded, SetLoaded(true)) in m.effects
    ensures AddListener(DocumentUnloaded, SetLoaded(false)) in m.effects
    ensures ProbeModule in m.effects
    ensures EnableElements(p.enabledElements) in m.effects <==> p.enabledElements != ""
    ensures AddHeaderButton(SaveXfdfButton) in m.effects <==>
              HasAttribute(p.xfdfAttribute) && !p.xfdfAttribute.value.readOnly && p.enableXfdfExportButton
    ensures (exists h :: AddListener(AnnotationChanged, h) in m.effects) <==>
              HasAttribute(p.xfdfAttribute) && !p.xfdfAttribute.value.readOnly && p.enableAutoXfdfExport
    ensures (exists x :: ImportAnnotations(x) in m.effects) <==>
              p.enableAutoXfdfImport && Truthy(BindFileId(p, s).currentFileId)
              && HasAttribute(p.xfdfAttribute) && s.isDocumentLoaded
    ensures InstallXfdfRetriever in m.effects <==>
              p.enableAutoXfdfImport && Truthy(BindFileId(p, s).currentFileId)
              && HasAttribute(p.xfdfAttribute) && !s.isDocumentLoaded
    ensures forall x :: ImportAnnotations(x) in m.effects ==> x == p.xfdfAttribute.value.value
    ensures Warning(ReadOnlyWarning) in m.effects <==> HasAttribute(p.xfdfAttribute) && p.xfdfAttribute.value.readOnly
    ensures Warning(MissingXfdfWarning) in m.effects <==>
              p.enableAutoXfdfImport && Truthy(BindFileId(p, s).currentFileId) && p.xfdfAttribute.None?
    ensures forall x :: x in m.effects ==> IsSetupEffect(x) || x.LoadDocument? || IsWiringEffect(x) || IsImportEffect(x)
  {
    var s1 := BindFileId(p, s.(hasInstance := true));
    assert s1.currentFileId == BindFileId(p, s).currentFileId && s1.isDocumentLoaded == s.isDocumentLoaded;
    MountEffects(p, s1);
    Step(Setup(p) + SourceLoad(p) + XfdfWiring(p) + AutoImport(p, s1), s1)
  }

  /** Loading the document source, if there is one. */
  function SourceLoad(p: Props): (e: seq<Effect>)
    ensures forall x :: x in e ==> x.LoadDocument?
    ensures forall u :: LoadDocument(u) in e <==> DocumentSource(p) == Some(u)
  {
    match DocumentSource(p)
    case Some(u) => [LoadDocument(u)]
    case None => []
  }

  /** Each kind of mount effect comes from exactly one part of the mount:
      setup, document load, XFDF wiring or auto-import, so the whole mount
      performs it exactly when that part does. `s` is the state after the
      file id is bound. */
  lemma MountEffects(p: Props, s: ViewerState)
    ensures var e := Setup(p) + SourceLoad(p) + XfdfWiring(p) + AutoImport(p, s);
            && ProbeModule in e
            && (EnableElements(p.enabledElements) in e <==> p.enabledElements != "")
            && (forall u :: LoadDocument(u) in e <==> DocumentSource(p) == Some(u))
            && (AddHeaderButton(SaveXfdfButton) in e <==>
                  HasAttribute(p.xfdfAttribute) && !p.xfdfAttribute.value.readOnly && p.enableXfdfExportButton)
            && ((exists h :: AddListener(AnnotationChanged, h) in e) <==>
                  HasAttribute(p.xfdfAttribute) && !p.xfdfAttribute.value.readOnly && p.enableAutoXfdfExport)
    ensures var e := Setup(p) + SourceLoad(p) + XfdfWiring(p) + AutoImport(p, s);
            && ((exists x :: ImportAnnotations(x) in e) <==>
                  p.enableAutoXfdfImport && Truthy(s.currentFileId) && HasAttribute(p.xfdfAttribute) && s.isDocumentLoaded)
            && (InstallXfdfRetriever in e <==>
                  p.enableAutoXfdfImport && Truthy(s.currentFileId) && HasAttribute(p.xfdfAttribute) && !s.isDocumentLoaded)
            && (forall x :: ImportAnnotations(x) in e ==> x == p.xfdfAttribute.value.value)
    ensures var e := Setup(p) + SourceLoad(p) + XfdfWiring(p) + AutoImport(p, s);
            && (Warning(ReadOnlyWarning) in e <==> HasAttribute(p.xfdfAttribute) && p.xfdfAttribute.value.readOnly)
            && (Warning(MissingXfdfWarning) in e <==>
                  p.enableAutoXfdfImport && Truthy(s.currentFileId) && p.xfdfAttribute.None?)
            && (forall x :: x in e ==> IsSetupEffect(x) || x.LoadDocument? || IsWiringEffect(x) || IsImportEffect(x))
  {
    PartsOfMount(Setup(p), SourceLoad(p), XfdfWiring(p), AutoImport(p, s));
    WarningsOfMount(Setup(p), SourceLoad(p), XfdfWiring(p), AutoImport(p, s));
  }

  lemma PartsOfMount(a: seq<Effect>, b: seq<Effect>, c: seq<Effect>, d: seq<Effect>)
    requires forall x :: x in a ==> IsSetupEffect(x)
    requires forall x :: x in b ==> x.LoadDocument?
    requires forall x :: x in c ==> IsWiringEffect(x)
    requires forall x :: x in d ==> IsImportEffect(x)
    ensures var e := a + b + c + d;
            && (ProbeModule in a ==> ProbeModule in e)
            && (forall l :: EnableElements(l) in e <==> EnableElements(l) in a)
            && (forall u :: LoadDocument(u) in e <==> LoadDocument(u) in b)
            && (AddHeaderButton(SaveXfdfButton) in e <==> AddHeaderButton(SaveXfdfButton) in c)
            && ((exists h :: AddListener(AnnotationChanged, h) in e) <==> exists h :: AddListener(AnnotationChanged, h) in c)
            && ((exists x :: ImportAnnotations(x) in e) <==> exists x :: ImportAnnotations(x) in d)
            && (InstallXfdfRetriever in e <==> InstallXfdfRetriever in d)
            && (forall x :: ImportAnnotations(x) in e ==> ImportAnnotations(x) in d)
  {
  }

  /** Each warning of the mount comes from its own part, and every mount
      effect is of one of the parts' kinds. */
  lemma WarningsOfMount(a: seq<Effect>, b: seq<Effect>, c: seq<Effect>, d: seq<Effect>)
    requires forall x :: x in a ==> IsSetupEffect(x)
    requires forall x :: x in b ==> x.LoadDocument?
    requires forall x :: x in c ==> IsWiringEffect(x)
    requires forall x :: x in d ==> IsImportEffect(x)
    ensures var e := a + b + c + d;
            && (Warning(ReadOnlyWarning) in e <==> Warning(ReadOnlyWarning) in c)
            && (Warning(MissingXfdfWarning) in e <==> Warning(MissingXfdfWarning) in d)
            && (forall x :: x in e ==> IsSetupEffect(x) || x.LoadDocument? || IsWiringEffect(x) || IsImportEffect(x))
  {
  }

  /** The buttons added once the module probe has answered. */
  function HeaderButtons(p: Props, moduleAvailable: bool): (e: seq<Effect>)
    ensures AddHeaderButton(SaveDocumentButton) in e <==> moduleAvailable && p.enableDocumentUpdates
    ensures AddHeaderButton(SaveAsButton) in e <==> moduleAvailable && p.enableSaveAsButton
    ensures forall x :: x in e ==> x.AddHeaderButton?
  {
    if !moduleAvailable then []
    else
      (if p.enableDocumentUpdates then [AddHeaderButton(SaveDocumentButton)] else [])
      + (if p.enableSaveAsButton then [AddHeaderButton(SaveAsButton)] else [])
  }

  /** The module probe followed by the buttons it enables. */
  function ProbeAndAddButtons(p: Props, outcome: MC.FetchOutcome): (e: seq<Effect>)
    ensures AddHeaderButton(SaveDocumentButton) in e <==>
              outcome.Responds? && outcome.text.Some? && p.enableDocumentUpdates
    ensures AddHeaderButton(SaveAsButton) in e <==>
              outcome.Responds? && outcome.text.Some? && p.enableSaveAsButton
  {
    var probe := MC.CheckForModule(outcome);
    var buttons := HeaderButtons(p, probe.settlement.value);
    assert forall i :: 0 <= i < |probe.effects| ==> !Lift(probe.effects)[i].AddHeaderButton?;
    Lift(probe.effects) + buttons
  }

  /** Client effects as viewer effects. */
  function Lift(e: seq<MC.Effect>): (r: seq<Effect>)
    ensures |r| == |e|
    ensures forall i :: 0 <= i < |e| ==> r[i] == Client(e[i])
  {
    if |e| == 0 then [] else [Client(e[0])] + Lift(e[1..])
  }

  /** The save button's guard `currentFileId || fileIdAttribute`: a supplied
      attribute is an object, so it is truthy whatever its value. */
  predicate CanSave(p: Props, s: ViewerState)
    ensures CanSave(p, s) <==> Truthy(Or(s.currentFileId, if p.fileIdAttribute.Some? then Bool(true) else Undefined))
  {
    Truthy(s.currentFileId) || p.fileIdAttribute.Some?
  }

  /** `currentFileId || fileIdAttribute.value || ""`, evaluated under the guard. */
  function SaveFileId(p: Props, s: ViewerState): (id: Value)
    requires CanSave(p, s)
    ensures Truthy(s.currentFileId) ==> id == s.currentFileId
    ensures !Truthy(s.currentFileId) && Truthy(p.fileIdAttribute.value.value) ==> id == p.fileIdAttribute.value.value
    ensures !Truthy(s.currentFileId) && !Truthy(p.fileIdAttribute.value.value) ==> id == Str("")
  {
    if Truthy(s.currentFileId) then s.currentFileId
    else Or(Or(s.currentFileId, p.fileIdAttribute.value.value), Str(""))
  }

  /** The save button's click handler. `documentExists` says whether
      `getDocument()` returns a document; without one, `getFileData` is called
      on null and the handler rejects right after the export. `xfdf` and
      `data` are what the SDK's export and file-data calls yield; `outcome` is
      what fetch does. */
  function Save(p: Props, s: ViewerState, documentExists: bool, xfdf: string, data: MC.Bytes, outcome: MC.FetchOutcome): (e: seq<Effect>)
    ensures !CanSave(p, s) ==> e == []
    ensures CanSave(p, s) && !documentExists ==> e == [ExportAnnotations(true)]
    ensures !documentExists ==> forall i :: 0 <= i < |e| ==> !e[i].Client? && e[i] != OpenLoadingModal
    ensures CanSave(p, s) && documentExists ==>
              && |e| >= 7
              && e[0] == ExportAnnotations(true)
              && e[1] == GetFileData(xfdf)
              && e[|e| - 4..] == [StartDelay(SaveDelayMs), OpenLoadingModal, AwaitAll(1), CloseLoadingModal]
              && (forall i :: 2 <= i < |e| - 4 ==> e[i].Client?)
  {
    if !CanSave(p, s) then []
    else if !documentExists then [ExportAnnotations(true)]
    else
      var update := MC.UpdateFile(SaveFileId(p, s), data, outcome);
      [ExportAnnotations(true), GetFileData(xfdf)]
      + Lift(update.effects)
      + [StartDelay(SaveDelayMs), OpenLoadingModal, AwaitAll(1), CloseLoadingModal]
  }

  /** The effects of client calls among a sequence of viewer effects, in order. */
  function ClientEffects(e: seq<Effect>): (c: seq<MC.Effect>)
    ensures |c| <= |e|
  {
    if |e| == 0 then []
    else
      assert e == [e[0]] + e[1..];
      (if e[0].Client? then [e[0].effect] else []) + ClientEffects(e[1..])
  }

  /** The requests a sequence of viewer effects issues: those of its client
      calls. */
  function SentRequests(e: seq<Effect>): seq<MC.Request>
  {
    MC.Requests(ClientEffects(e))
  }

  lemma {:induction false} ClientEffectsAppend(a: seq<Effect>, b: seq<Effect>)
    ensures ClientEffects(a + b) == ClientEffects(a) + ClientEffects(b)
    decreases |a|
  {
    if |a| == 0 {
      assert a + b == b;
    } else {
      assert (a + b)[0] == a[0];
      assert (a + b)[1..] == a[1..] + b;
      ClientEffectsAppend(a[1..], b);
    }
  }

  lemma SentRequestsAppend(a: seq<Effect>, b: seq<Effect>)
    ensures SentRequests(a + b) == SentRequests(a) + SentRequests(b)
  {
    ClientEffectsAppend(a, b);
    MC.RequestsAppend(ClientEffects(a), ClientEffects(b));
  }

  lemma {:induction false} NoClientNoEffects(e: seq<Effect>)
    requires forall i :: 0 <= i < |e| ==> !e[i].Client?
    ensures ClientEffects(e) == []
    decreases |e|
  {
    if |e| > 0 {
      NoClientNoEffects(e[1..]);
    }
  }

  /** Lifting client effects and picking them out again gives them back. */
  lemma {:induction false} ClientEffectsLift(e: seq<MC.Effect>)
    ensures ClientEffects(Lift(e)) == e
    decreases |e|
  {
    if |e| > 0 {
      assert Lift(e)[1..] == Lift(e[1..]);
      ClientEffectsLift(e[1..]);
    }
  }

  lemma SentRequestsLift(e: seq<MC.Effect>)
    ensures SentRequests(Lift(e)) == MC.Requests(e)
  {
    ClientEffectsLift(e);
  }

  /** Effects around a client call's own are no client effects. */
  lemma ClientEffectsBetween(head: seq<Effect>, mid: seq<MC.Effect>, tail: seq<Effect>)
    requires forall i :: 0 <= i < |head| ==> !head[i].Client?
    requires forall i :: 0 <= i < |tail| ==> !tail[i].Client?
    ensures ClientEffects(head + Lift(mid) + tail) == mid
  {
    var lifted := Lift(mid);
    NoClientNoEffects(head);
    NoClientNoEffects(tail);
    ClientEffectsLift(mid);
    ClientEffectsAppend(head, lifted);
    assert ClientEffects(head + lifted) == mid;
    ClientEffectsAppend(head + lifted, tail);
    assert ClientEffects(head + lifted + tail) == mid + [];
  }

  /** The client effects of a save are exactly those of its update call, so
      its requests are the update's requests. */
  lemma SaveRequestsAreUpdateRequests(p: Props, s: ViewerState, xfdf: string, data: MC.Bytes, outcome: MC.FetchOutcome)
    requires CanSave(p, s)
    ensures ClientEffects(Save(p, s, true, xfdf, data, outcome)) == MC.UpdateFile(SaveFileId(p, s), data, outcome).effects
    ensures SentRequests(Save(p, s, true, xfdf, data, outcome))
              == MC.Requests(MC.UpdateFile(SaveFileId(p, s), data, outcome).effects)
  {
    var update := MC.UpdateFile(SaveFileId(p, s), data, outcome).effects;
    var head, tail := SavePrelude(xfdf), SaveModalCycle();
    SaveShape(p, s, xfdf, data, outcome);
    ClientEffectsBetween(head, update, tail);
  }

  /** The export and file-data steps that open a save. */
  function SavePrelude(xfdf: string): (e: seq<Effect>)
    ensures forall i :: 0 <= i < |e| ==> !e[i].Client?
  {
    [ExportAnnotations(true), GetFileData(xfdf)]
  }

  /** The loading-modal cycle that closes a save. */
  function SaveModalCycle(): (e: seq<Effect>)
    ensures forall i :: 0 <= i < |e| ==> !e[i].Client?
  {
    [StartDelay(SaveDelayMs), OpenLoadingModal, AwaitAll(1), CloseLoadingModal]
  }

  /** A save is the export and file data, the update call, then the modal cycle. */
  lemma SaveShape(p: Props, s: ViewerState, xfdf: string, data: MC.Bytes, outcome: MC.FetchOutcome)
    requires CanSave(p, s)
    ensures Save(p, s, true, xfdf, data, outcome)
              == SavePrelude(xfdf) + Lift(MC.UpdateFile(SaveFileId(p, s), data, outcome).effects) + SaveModalCycle()
  {
  }

  /** The save handler sends one PUT of the file bytes to the document of
      the chosen id when that id is truthy, and none otherwise; the loading
      modal opens and closes in both cases, after the update settles. */
  lemma SaveRequests(p: Props, s: ViewerState, xfdf: string, data: MC.Bytes, outcome: MC.FetchOutcome)
    requires CanSave(p, s)
    ensures Truthy(SaveFileId(p, s)) ==>
              SentRequests(Save(p, s, true, xfdf, data, outcome))
                == [MC.Request(MC.Put, MC.DocumentPath(SaveFileId(p, s)), Some(data))]
    ensures !Truthy(SaveFileId(p, s)) ==>
              SentRequests(Save(p, s, true, xfdf, data, outcome)) == []
              && Client(MC.Warn(MC.EmptyIdWarning)) in Save(p, s, true, xfdf, data, outcome)
  {
    SaveRequestsAreUpdateRequests(p, s, xfdf, data, outcome);
    var update := MC.UpdateFile(SaveFileId(p, s), data, outcome);
    var e := Save(p, s, true, xfdf, data, outcome);
    if !Truthy(SaveFileId(p, s)) {
      assert e[2] == Client(MC.Warn(MC.EmptyIdWarning));
    }
  }

  /** A supplied id attribute without a usable value and no current id: the
      save sends nothing, yet still shows and hides the loading modal. */
  lemma SaveWithEmptyAttributeStillShowsModal(p: Props, s: ViewerState, xfdf: string, data: MC.Bytes, outcome: MC.FetchOutcome)
    requires !Truthy(s.currentFileId) && p.fileIdAttribute.Some? && !Truthy(p.fileIdAttribute.value.value)
    ensures SentRequests(Save(p, s, true, xfdf, data, outcome)) == []
    ensures OpenLoadingModal in Save(p, s, true, xfdf, data, outcome)
    ensures CloseLoadingModal in Save(p, s, true, xfdf, data, outcome)
  {
    SaveRequests(p, s, xfdf, data, outcome);
    var e := Save(p, s, true, xfdf, data, outcome);
    assert e[|e| - 3] == OpenLoadingModal;
    assert e[|e| - 1] == CloseLoadingModal;
  }

  /** Without a document neither save handler reaches the client or the
      loading modal, and Save As keeps the current id. */
  lemma SaveWithoutDocument(p: Props, s: ViewerState, xfdf: string, data: MC.Bytes,
                            outcome: MC.FetchOutcome, saved: SaveOutcome)
    ensures SentRequests(Save(p, s, false, xfdf, data, outcome)) == []
    ensures OpenLoadingModal !in Save(p, s, false, xfdf, data, outcome)
    ensures SaveFile(data) !in SaveAs(s, false, xfdf, data, saved).effects
    ensures OpenLoadingModal !in SaveAs(s, false, xfdf, data, saved).effects
    ensures SaveAs(s, false, xfdf, data, saved).state.currentFileId == s.currentFileId
  {
    NoClientNoEffects(Save(p, s, false, xfdf, data, outcome));
  }

  /** What `saveFile(fileData)` does. The shown client defines no such method,
      in which case the call throws before anything is awaited. */
  datatype SaveOutcome = SaveResolves(id: Value) | SaveRejects | SaveThrows

  /** The Save As button's click handler. As for the save button,
      `documentExists` says whether `getDocument()` returns a document; without
      one the handler rejects after the export, before `saveFile`. */
  function SaveAs(s: ViewerState, documentExists: bool, xfdf: string, data: MC.Bytes, outcome: SaveOutcome): (m: Step)
    ensures !documentExists ==> m.effects == [ExportAnnotations(true)] && m.state == s
    ensures documentExists ==>
              |m.effects| >= 3 && m.effects[..3] == [ExportAnnotations(true), GetFileData(xfdf), SaveFile(data)]
    ensures documentExists && outcome.SaveResolves? ==> m.state == s.(currentFileId := NumberOf(outcome.id))
    ensures !outcome.SaveResolves? ==> m.state == s
    ensures CloseLoadingModal in m.effects <==> documentExists && outcome.SaveResolves?
    ensures OpenLoadingModal in m.effects <==> documentExists && !outcome.SaveThrows?
    ensures documentExists && !outcome.SaveThrows? ==>
              |m.effects| >= 6 && m.effects[3] == StartDelay(SaveDelayMs)
              && m.effects[4] == OpenLoadingModal && m.effects[5] == AwaitAll(2)
    ensures documentExists && outcome.SaveResolves? ==>
              m.effects[|m.effects| - 3..] == [AwaitAll(2), SetCurrentFileId(NumberOf(outcome.id)), CloseLoadingModal]
  {
    var prepare := [ExportAnnotations(true), GetFileData(xfdf), SaveFile(data)];
    var show := [StartDelay(SaveDelayMs), OpenLoadingModal, AwaitAll(2)];
    if !documentExists then Step([ExportAnnotations(true)], s)
    else
    match outcome
    case SaveThrows => Step(prepare, s)
    case SaveRejects => Step(prepare + show, s)
    case SaveResolves(id) =>
      var newId := NumberOf(id);
      Step(prepare + show + [SetCurrentFileId(newId), CloseLoadingModal], s.(currentFileId := newId))
  }

  /** A Save As that resolves with the decimal text of `n` leaves `n` as the
      current id. */
  lemma SaveAsDecimalId(s: ViewerState, xfdf: string, data: MC.Bytes, n: nat)
    ensures SaveAs(s, true, xfdf, data, SaveResolves(Str(NatToString(n)))).state == s.(currentFileId := Num(n))
  {
    ToNumberNatToString(n);
  }

  /** With a positive current id, a save puts the bytes to that document. */
  lemma SaveToCurrentId(p: Props, s: ViewerState, xfdf: string, data: MC.Bytes, n: nat, outcome: MC.FetchOutcome)
    requires n > 0 && s.currentFileId == Num(n)
    ensures CanSave(p, s)
    ensures SentRequests(Save(p, s, true, xfdf, data, outcome)) == [MC.Request(MC.Put, MC.DocumentsPath + NatToString(n), Some(data))]
  {
    assert SaveFileId(p, s) == Num(n);
    assert MC.DocumentPath(Num(n)) == MC.DocumentsPath + NatToString(n);
    SaveRequests(p, s, xfdf, data, outcome);
  }

  /** A Save As that returns the decimal id `n > 0` makes the next save go to
      that document, whatever the id attribute says. */
  lemma SaveAfterSaveAs(p: Props, s: ViewerState, xfdf: string, data: MC.Bytes, n: nat,
                        xfdf2: string, data2: MC.Bytes, outcome: MC.FetchOutcome)
    requires n > 0
    ensures CanSave(p, SaveAs(s, true, xfdf, data, SaveResolves(Str(NatToString(n)))).state)
    ensures SentRequests(Save(p, SaveAs(s, true, xfdf, data, SaveResolves(Str(NatToString(n)))).state, true, xfdf2, data2, outcome))
              == [MC.Request(MC.Put, MC.DocumentsPath + NatToString(n), Some(data2))]
  {
    SaveAsDecimalId(s, xfdf, data, n);
    SaveToCurrentId(p, s.(currentFileId := Num(n)), xfdf2, data2, n, outcome);
  }

  /** A Save As that returns id "0" leaves a falsy current id behind: without
      an id attribute the next save does nothing. */
  lemma SaveAfterSaveAsZero(p: Props, s: ViewerState, xfdf: string, data: MC.Bytes, documentExists: bool,
                            xfdf2: string, data2: MC.Bytes, outcome: MC.FetchOutcome)
    requires p.fileIdAttribute.None?
    ensures SaveAs(s, true, xfdf, data, SaveResolves(Str("0"))).state.currentFileId == Num(0)
    ensures Save(p, SaveAs(s, true, xfdf, data, SaveResolves(Str("0"))).state, documentExists, xfdf2, data2, outcome) == []
  {
    assert NatToString(0) == "0";
    ToNumberNatToString(0);
    assert NumberOf(Str("0")) == Num(0);
    var s' := SaveAs(s, true, xfdf, data, SaveResolves(Str("0"))).state;
    assert s' == s.(currentFileId := Num(0));
    assert !CanSave(p, s');
  }

  /** The retriever mount installs hands over the XFDF attribute's value when
      the SDK calls it with the state mount left behind. */
  lemma MountedRetrieverReturnsAttribute(p: Props, s: ViewerState)
    requires InstallXfdfRetriever in Mount(p, s).effects
    ensures Retriever(p, Mount(p, s).state) == Returns(p.xfdfAttribute.value.value)
  {
  }

  /** The retriever reads the id when it is called: once a Save As answered
      with "0" has made the id falsy, it returns `undefined`. */
  lemma RetrieverAfterSaveAsZero(p: Props, s: ViewerState, xfdf: string, data: MC.Bytes)
    ensures Retriever(p, SaveAs(s, true, xfdf, data, SaveResolves(Str("0"))).state) == ReturnsUndefined
  {
    assert AllDigits("0");
    assert NumberOf(Str("0")) == Num(0);
  }

  /** One `annotationChanged` notification as the export handler sees it:
      its `info` argument as in `UpdateXfdfAttribute`, whether a document
      exists when the handler runs, and what the export would yield. */
  datatype Change = Change(info: Option<Value>, documentExists: bool, exported: string)

  /** The notifications the handler acts on: not flagged as imported, with a
      document. */
  predicate Writes(c: Change)
  {
    !(c.info.Some? && Truthy(c.info.value)) && c.documentExists
  }

  /** The XFDF attribute's value after some effects, starting from `v`: each
      `SetXfdfAttribute` overwrites it. */
  function Written(v: Value, e: seq<Effect>): (r: Value)
    ensures (forall i :: 0 <= i < |e| ==> !e[i].SetXfdfAttribute?) ==> r == v
    decreases |e|
  {
    if |e| == 0 then v
    else Written(if e[0].SetXfdfAttribute? then Str(e[0].exported) else v, e[1..])
  }

  /** The attribute's value once the handler has run for each notification
      in turn. */
  function AttributeAfter(v: Value, cs: seq<Change>): Value
  {
    if |cs| == 0 then v
    else
      var c := cs[|cs| - 1];
      Written(AttributeAfter(v, cs[..|cs| - 1]), UpdateXfdfAttribute(c.info, c.documentExists, c.exported))
  }

  /** The attribute holds the export of the last notification the handler
      acts on, and keeps its value when there is none. */
  lemma {:induction false} AttributeIsLastWrite(v: Value, cs: seq<Change>)
    ensures (forall i :: 0 <= i < |cs| ==> !Writes(cs[i])) ==> AttributeAfter(v, cs) == v
    ensures forall i :: 0 <= i < |cs| && Writes(cs[i]) && (forall j :: i < j < |cs| ==> !Writes(cs[j])) ==>
              AttributeAfter(v, cs) == Str(cs[i].exported)
    decreases |cs|
  {
    if |cs| > 0 {
      var init, c := cs[..|cs| - 1], cs[|cs| - 1];
      AttributeIsLastWrite(v, init);
      var before := AttributeAfter(v, init);
      var e := UpdateXfdfAttribute(c.info, c.documentExists, c.exported);
      assert AttributeAfter(v, cs) == Written(before, e);
      if Writes(c) {
        assert e == [ExportAnnotations(false), SetXfdfAttribute(c.exported)];
        assert Written(before, e) == Written(before, e[1..]);
        assert Written(before, e) == Str(c.exported);
      } else {
        assert e == [];
        forall i | 0 <= i < |init| ensures init[i] == cs[i] { }
      }
    }
  }

  /** The auto-import's own change notifications carry a truthy `imported`
      flag, so the handler never writes back what was just read from the
      attribute: a run of them leaves the attribute as it was, before or after
      a user's change, whose export stays in the attribute. This is about
      notifications that each reach the handler: Save XFDF clicks, or
      auto-export changes more than 1000 ms apart. The debounce, which calls
      the handler once with the last notification of a burst, is not part of
      `AttributeAfter`. */
  lemma ImportIsNotWrittenBack(v: Value, imports: seq<Change>, user: Change)
    requires forall i :: 0 <= i < |imports| ==> imports[i].info.Some? && Truthy(imports[i].info.value)
    requires Writes(user)
    ensures AttributeAfter(v, imports) == v
    ensures AttributeAfter(v, imports + [user]) == Str(user.exported)
    ensures AttributeAfter(v, [user] + imports) == Str(user.exported)
  {
    AttributeIsLastWrite(v, imports);
    var after, before := imports + [user], [user] + imports;
    AttributeIsLastWrite(v, after);
    assert after[|imports|] == user;
    AttributeIsLastWrite(v, before);
    assert before[0] == user;
    assert forall j :: 0 < j < |before| ==> before[j] == imports[j - 1];
  }

  /** Unmounting disposes the instance when there is one. */
  function Unmount(s: ViewerState): (m: Step)
    ensures !m.state.hasInstance
    ensures m.effects == (if s.hasInstance then [Dispose] else [])
    ensures m.state.currentFileId == s.currentFileId && m.state.isDocumentLoaded == s.isDocumentLoaded
  {
    if s.hasInstance then Step([Dispose], s.(hasInstance := false)) else Step([], s)
  }

  /** Mount and unmount pair up: the instance a mount creates is disposed
      exactly once, and a second unmount does nothing. */
  lemma UnmountAfterMount(p: Props, s: ViewerState)
    ensures var u := Unmount(Mount(p, s).state);
            && u.effects == [Dispose]
            && u.state == ViewerState(false, s.isDocumentLoaded, BindFileId(p, s).currentFileId)
            && Unmount(u.state) == Step([], u.state)
  {
  }

  /** The container is visible for a truthy `isVisible`, for `undefined` and
      for `null`: it is hidden exactly for `false`, `0`, NaN and `""`. */
  predicate IsShown(isVisible: Value)
    ensures !IsShown(isVisible) <==> isVisible == Bool(false) || isVisible == Num(0) || isVisible == NaN || isVisible == Str("")
  {
    Truthy(isVisible) || isVisible == Undefined || isVisible == Null
  }
}

=== FILE: strings.dfy ===
/** Character-sequence utilities the widget relies on through the JavaScript
    runtime: `String.prototype.split` with a one-character separator, its
    inverse `Array.prototype.join`, and `Array.prototype.sort` with the default
    comparator, which orders strings lexicographically by character. JavaScript
    compares UTF-16 code units; the model compares Dafny characters, which are
    code points, and the two orders agree on the Basic Multilingual Plane. */
module Strings {

  /** The pieces of `s` between occurrences of `sep`, as `s.split(sep)` returns
      them: never empty, and the empty string splits into one empty piece. */
  function Split(s: string, sep: char): (parts: seq<string>)
    ensures |parts| == multiset(s)[sep] + 1
    ensures forall i :: 0 <= i < |parts| ==> sep !in parts[i]
    decreases |s|
  {
    if |s| == 0 then [""]
    else
      assert s == [s[0]] + s[1..];
      var rest := Split(s[1..], sep);
      if s[0] == sep then [""] + rest
      else [[s[0]] + rest[0]] + rest[1..]
  }

  /** `parts.join(sep)`. */
  function Join(parts: seq<string>, sep: char): string
  {
    if |parts| == 0 then ""
    else if |parts| == 1 then parts[0]
    else parts[0] + [sep] + Join(parts[1..], sep)
  }

  /** Splitting a piece free of the separator, followed by the separator and a
      tail, yields that piece followed by the pieces of the tail. */
  lemma {:induction false} SplitAfterPiece(a: string, sep: char, t: string)
    requires sep !in a
    ensures Split(a + [sep] + t, sep) == [a] + Split(t, sep)
    decreases |a|
  {
    if |a| == 0 {
      assert a + [sep] + t == [sep] + t;
      assert ([sep] + t)[1..] == t;
    } else {
      var s := a + [sep] + t;
      assert s[1..] == a[1..] + [sep] + t;
      SplitAfterPiece(a[1..], sep, t);
      assert [a[0]] + a[1..] == a;
    }
  }

  /** A string without the separator splits into itself. */
  lemma {:induction false} SplitWithoutSeparator(a: string, sep: char)
    requires sep !in a
    ensures Split(a, sep) == [a]
    decreases |a|
  {
    if |a| > 0 {
      SplitWithoutSeparator(a[1..], sep);
      assert [a[0]] + a[1..] == a;
    }
  }

  /** Joining a head piece in front of a non-empty list. */
  lemma JoinCons(a: string, rest: seq<string>, sep: char)
    requires |rest| > 0
    ensures Join([a] + rest, sep) == a + [sep] + Join(rest, sep)
  {
    assert ([a] + rest)[1..] == rest;
  }

  /** One step of JoinSplit: `s` starts with an ordinary character. */
  lemma JoinSplitStep(s: string, sep: char)
    requires |s| > 0 && s[0] != sep
    requires Join(Split(s[1..], sep), sep) == s[1..]
    ensures Join(Split(s, sep), sep) == s
  {
    var rest := Split(s[1..], sep);
    var head := [s[0]] + rest[0];
    assert Split(s, sep) == [head] + rest[1..];
    if |rest| > 1 {
      JoinExtendHead(s[0], rest, sep);
    } else {
      assert [head] + rest[1..] == [head];
    }
    assert s == [s[0]] + s[1..];
  }

  /** Prefixing the first piece with a character prefixes the joined string. */
  lemma JoinExtendHead(c: char, rest: seq<string>, sep: char)
    requires |rest| > 1
    ensures Join([[c] + rest[0]] + rest[1..], sep) == [c] + Join(rest, sep)
  {
    var tail := Join(rest[1..], sep);
    JoinCons([c] + rest[0], rest[1..], sep);
    JoinCons(rest[0], rest[1..], sep);
    assert rest == [rest[0]] + rest[1..];
    assert [c] + rest[0] + [sep] + tail == [c] + (rest[0] + [sep] + tail);
  }

  /** Join undoes Split. */
  lemma {:induction false} JoinSplit(s: string, sep: char)
    ensures Join(Split(s, sep), sep) == s
    decreases |s|
  {
    if |s| > 0 {
      JoinSplit(s[1..], sep);
      if s[0] == sep {
        JoinCons("", Split(s[1..], sep), sep);
        assert s == [sep] + s[1..];
      } else {
        JoinSplitStep(s, sep);
      }
    }
  }

  /** Split undoes Join, for a non-empty list of pieces free of the separator. */
  lemma {:induction false} SplitJoin(parts: seq<string>, sep: char)
    requires |parts| > 0
    requires forall i :: 0 <= i < |parts| ==> sep !in parts[i]
    ensures Split(Join(parts, sep), sep) == parts
    decreases |parts|
  {
    if |parts| == 1 {
      SplitWithoutSeparator(parts[0], sep);
    } else {
      SplitJoin(parts[1..], sep);
      SplitAfterPiece(parts[0], sep, Join(parts[1..], sep));
      assert [parts[0]] + parts[1..] == parts;
    }
  }

  /** `a <= b` in the order JavaScript's default sort uses: a proper prefix
      comes first, otherwise the first differing character decides. */
  predicate LexLe(a: string, b: string)
    decreases |a|
  {
    |a| == 0 || (|b| > 0 && (a[0] < b[0] || (a[0] == b[0] && LexLe(a[1..], b[1..]))))
  }

  lemma {:induction false} LexLeReflexive(a: string)
    ensures LexLe(a, a)
    decreases |a|
  {
    if |a| > 0 {
      LexLeReflexive(a[1..]);
    }
  }

  lemma {:induction false} LexLeTotal(a: string, b: string)
    ensures LexLe(a, b) || LexLe(b, a)
    decreases |a|
  {
    if |a| > 0 && |b| > 0 && a[0] == b[0] {
      LexLeTotal(a[1..], b[1..]);
    }
  }

  lemma {:induction false} LexLeAntisymmetric(a: string, b: string)
    requires LexLe(a, b) && LexLe(b, a)
    ensures a == b
    decreases |a|
  {
    if |a| > 0 {
      LexLeAntisymmetric(a[1..], b[1..]);
      assert a == [a[0]] + a[1..];
      assert b == [b[0]] + b[1..];
    }
  }

  lemma {:induction false} LexLeTransitive(a: string, b: string, c: string)
    requires LexLe(a, b) && LexLe(b, c)
    ensures LexLe(a, c)
    decreases |a|
  {
    if |a| > 0 && a[0] == b[0] && b[0] == c[0] {
      LexLeTransitive(a[1..], b[1..], c[1..]);
    }
  }

  /** Every element is at most every later element. */
  predicate Sorted(s: seq<string>)
  {
    forall i, j :: 0 <= i < j < |s| ==> LexLe(s[i], s[j])
  }

  lemma SortedCons(x: string, s: seq<string>)
    requires Sorted(s)
    requires |s| > 0 ==> LexLe(x, s[0])
    ensures Sorted([x] + s)
  {
    forall j | 0 <= j < |s|
      ensures LexLe(x, s[j])
    {
      if j > 0 {
        LexLeTransitive(x, s[0], s[j]);
      }
    }
  }

  /** Insertion of one string into a sorted list. */
  function Insert(x: string, s: seq<string>): (r: seq<string>)
    requires Sorted(s)
    ensures Sorted(r)
    ensures multiset(r) == multiset(s) + multiset{x}
    ensures r[0] == x || (|s| > 0 && r[0] == s[0])
  {
    if |s| == 0 then [x]
    else if LexLe(x, s[0]) then
      SortedCons(x, s);
      [x] + s
    else
      LexLeTotal(x, s[0]);
      var tail := Insert(x, s[1..]);
      assert LexLe(s[0], tail[0]);
      SortedCons(s[0], tail);
      assert s == [s[0]] + s[1..];
      [s[0]] + tail
  }

  /** The default `Array.prototype.sort` on strings: a sorted permutation. */
  function Sort(s: seq<string>): (r: seq<string>)
    ensures Sorted(r)
    ensures multiset(r) == multiset(s)
    ensures |r| == |s|
  {
    if |s| == 0 then []
    else
      assert s == [s[0]] + s[1..];
      Insert(s[0], Sort(s[1..]))
  }

  /** The head of a sorted list is at most each of its elements. */
  lemma SortedHeadIsLeast(a: seq<string>, x: string)
    requires Sorted(a) && x in a
    ensures LexLe(a[0], x)
  {
    var k :| 0 <= k < |a| && a[k] == x;
    if k == 0 { LexLeReflexive(x); }
  }

  /** Two sorted lists with the same elements are equal: the sorted order of a
      list is unique, whatever algorithm produced it. */
  lemma {:induction false} SortedUnique(a: seq<string>, b: seq<string>)
    requires Sorted(a) && Sorted(b)
    requires multiset(a) == multiset(b)
    ensures a == b
    decreases |a|
  {
    assert |a| == |multiset(a)| == |multiset(b)| == |b|;
    if |a| > 0 {
      assert a[0] in multiset(b) && b[0] in multiset(a);
      SortedHeadIsLeast(b, a[0]);
      SortedHeadIsLeast(a, b[0]);
      LexLeAntisymmetric(a[0], b[0]);
      SortedTails(a, b);
      SortedUnique(a[1..], b[1..]);
    }
  }

  /** Removing equal heads keeps both lists sorted with equal elements. */
  lemma SortedTails(a: seq<string>, b: seq<string>)
    requires Sorted(a) && Sorted(b) && |a| > 0 && |b| > 0
    requires multiset(a) == multiset(b) && a[0] == b[0]
    ensures Sorted(a[1..]) && Sorted(b[1..])
    ensures multiset(a[1..]) == multiset(b[1..])
  {
    SortedSuffix(a);
    SortedSuffix(b);
    assert a == [a[0]] + a[1..];
    assert b == [b[0]] + b[1..];
    assert multiset(a) == multiset{a[0]} + multiset(a[1..]);
    assert multiset(b) == multiset{b[0]} + multiset(b[1..]);
    assert multiset(a[1..]) == multiset(a) - multiset{a[0]};
    assert multiset(b[1..]) == multiset(b) - multiset{b[0]};
  }

  lemma SortedSuffix(a: seq<string>)
    requires Sorted(a) && |a| > 0
    ensures Sorted(a[1..])
  {
    forall i, j | 0 <= i < j < |a| - 1
      ensures LexLe(a[1..][i], a[1..][j])
    {
      assert a[1..][i] == a[i + 1] && a[1..][j] == a[j + 1];
    }
  }

  /** Sorting depends only on the elements, not on their input order. */
  lemma SortPermutationInvariant(a: seq<string>, b: seq<string>)
    requires multiset(a) == multiset(b)
    ensures Sort(a) == Sort(b)
  {
    SortedUnique(Sort(a), Sort(b));
  }
}

=== FILE: thumbnail.dfy ===
/** One page thumbnail of the page-extraction dialog
    (src/components/PageExtractionModal/PageExtractionThumbnail.tsx): its
    state, the page-range listener, and the hover and click handlers.

    `setState` calls inside the event handlers are deferred by React until the
    handler returns, so `onClick` reads the selection from before the click and
    reports its negation, which is the new selection. */
module Thumbnail {
  import opened Js
  import Strings
  import PageRange

  datatype ThumbState = ThumbState(thumbnail: Option<string>, isHover: bool, isSelected: bool, isDisabled: bool)

  /** The constructor's state: page 1 starts selected, nothing else does. */
  function Init(page: int): (s: ThumbState)
    ensures s.isSelected <==> page == 1
    ensures !s.isHover && !s.isDisabled && s.thumbnail.None?
  {
    ThumbState(None, false, page == 1, false)
  }

  /** The data URL of the rendered page arrives. */
  function OnThumbnailLoaded(s: ThumbState, url: string): (r: ThumbState)
    ensures r.thumbnail == Some(url)
    ensures r.(thumbnail := s.thumbnail) == s
  {
    s.(thumbnail := Some(url))
  }

  /** The "pages" input changed: selection and disabling are recomputed from
      the input alone. */
  function OnFileInputChanged(s: ThumbState, page: int, input: string): (r: ThumbState)
    ensures r.isSelected <==> exists part :: part in Strings.Split(input, ',') && PageRange.Covers(part, page)
    ensures var hs := PageRange.Classified(PageRange.Parts(input), page);
            r.isDisabled <==> multiset(hs)[PageRange.ExactHitKind] >= 2 || PageRange.FirstHitIsRange(hs)
    ensures r.thumbnail == s.thumbnail && r.isHover == s.isHover
  {
    PageRange.SelectedIffCovered(input, page);
    PageRange.DisabledIff(input, page);
    var sel := PageRange.Evaluate(input, page);
    s.(isSelected := sel.isSelected, isDisabled := sel.isDisabled)
  }

  function OnHoverEnter(s: ThumbState): (r: ThumbState)
    ensures s.isDisabled ==> r == s
    ensures !s.isDisabled ==> r.isHover && r.(isHover := s.isHover) == s
  {
    if s.isDisabled then s else s.(isHover := true)
  }

  function OnHoverLeave(s: ThumbState): (r: ThumbState)
    ensures s.isDisabled ==> r == s
    ensures !s.isDisabled ==> !r.isHover && r.(isHover := s.isHover) == s
  {
    if s.isDisabled then s else s.(isHover := false)
  }

  /** What the parent's `onClick(pageNumber, selected)` receives. */
  datatype Notice = Notice(page: int, selected: bool)

  datatype Clicked = Clicked(state: ThumbState, notice: Option<Notice>)

  /** A click on an enabled thumbnail flips its selection and reports the new
      value; a disabled one ignores it. */
  function OnClick(s: ThumbState, page: int): (c: Clicked)
    ensures s.isDisabled ==> c == Clicked(s, None)
    ensures !s.isDisabled ==> c.state.isSelected == !s.isSelected
    ensures !s.isDisabled ==> c.notice == Some(Notice(page, c.state.isSelected))
    ensures c.state.(isSelected := s.isSelected) == s
  {
    if s.isDisabled then Clicked(s, None)
    else Clicked(s.(isSelected := !s.isSelected), Some(Notice(page, !s.isSelected)))
  }

  /** The initial state is the one the input "1" produces. */
  lemma InitAgreesWithInputOne(page: int)
    ensures OnFileInputChanged(Init(page), page, "1") == Init(page)
  {
    PageRange.InputOne(page);
  }

  /** Two thumbnails that differ only in selection, disabling or an earlier
      input agree after the same input change. */
  lemma InputChangeForgetsPriorSelection(s1: ThumbState, s2: ThumbState, page: int, input: string)
    requires s1.thumbnail == s2.thumbnail && s1.isHover == s2.isHover
    ensures OnFileInputChanged(s1, page, input) == OnFileInputChanged(s2, page, input)
  {
  }

  lemma InputChangeIdempotent(s: ThumbState, page: int, input: string)
    ensures OnFileInputChanged(OnFileInputChanged(s, page, input), page, input) == OnFileInputChanged(s, page, input)
  {
  }

  /** The thumbnail image and the input may arrive in either order. */
  lemma ThumbnailCommutesWithInput(s: ThumbState, url: string, page: int, input: string)
    ensures OnThumbnailLoaded(OnFileInputChanged(s, page, input), url)
         == OnFileInputChanged(OnThumbnailLoaded(s, url), page, input)
  {
  }

  /** A disabled thumbnail absorbs every hover and click: no state change and
      no report. */
  lemma DisabledIsInert(s: ThumbState, page: int)
    requires s.isDisabled
    ensures OnHoverEnter(s) == s && OnHoverLeave(s) == s
    ensures OnClick(s, page) == Clicked(s, None)
  {
  }

  /** Two clicks on an enabled thumbnail restore it, after reporting opposite
      values. */
  lemma ClickTwiceRestores(s: ThumbState, page: int)
    requires !s.isDisabled
    ensures OnClick(OnClick(s, page).state, page).state == s
    ensures OnClick(s, page).notice.value.selected != OnClick(OnClick(s, page).state, page).notice.value.selected
  {
  }

  /** Leaving undoes entering on an enabled thumbnail that was not hovered. */
  lemma HoverLeaveUndoesEnter(s: ThumbState)
    requires !s.isDisabled && !s.isHover
    ensures OnHoverLeave(OnHoverEnter(s)) == s
  {
  }
}
